=== FILE: README.md ===
# Ontology tree annotation, modelled in Dafny

This project models the in-memory core of `code/json_ontology_extender.py`. That code annotates a taxonomy tree, in which every node is a JSON dictionary with an optional `children` list. The pipeline of `add_data_to_ontology_file` runs these stages in order:

1. **Merge.** Copy the first matching row of an external table onto each node (`add_data_to_node`).
2. **Audit.** Count the nodes that lack a field (`field_missing`).
3. **Accumulate.** Where a size is missing anywhere, sum `group_size` and then `matched_size` bottom-up (`accumulate_field_in_parents`).
4. **Fractions.** Store `occurrence_fraction` at every node (`calc_stats`).
5. **Root override.** Recompute the root's sizes from its immediate children only (`calc_root_stats`).
6. **Pie data.** Attach a two-entry `pie_data` list to every node (`add_pie_data_to_node_and_children`).

The setter `set_field_in_all_nodes` is modelled too.

The source mutates the tree in place. Here every stage is a pure function from a tree to a new tree (`Node = Leaf | Branch`). `Leaf` stands for a dictionary without a `children` key. Field values are JSON values, and numbers are exact reals.

Modules:

- `Json`: values and `Option`.
- `Tree`: nodes, field keys, the pre-order listing `Nodes`, and the reference rewrite `MapFields`. It also defines the relation `AgreeExcept(a, b, k)`, meaning two trees of the same shape differ at most in field `k`.
- `RowMatcher`, `Auditor`, `Propagator`, `Statistics`, `PieChart`: one per stage.
- `Pipeline`: the composition of the stages, the root-override theorem and a worked two-leaf example.

Every recursive stage is paired with a reference definition: a node-by-node rewrite through `MapFields`, or a count or sum over the `Nodes` listing. A lemma proves the recursive stage equal to its reference on all inputs.

`str()` and `json.loads` are parameters of the model:

- `toStr: Value -> string` plays `str()`.
- `parse: string -> Option<Value>` plays `json.loads`, with `None` where the source raises.

An exception the source would raise outside its `try` block becomes a precondition of the stage that raises it. The whole pipeline, `Pipeline.Run`, returns `None` instead. It does so when the table lacks the data-key column, or when the prepared tree has no child list or a present size that is not a number. Under "## Left out", the `Pipeline.Run` line names the one case where the model fails and the source does not. The exceptions are:

- a `KeyError` on a table without the data-key column, where that column is converted to strings (line 143);
- a `KeyError` on a missing `children` key at the root, or on a missing `occurrence_fraction`;
- a `KeyError` on a missing `group_size` where the fraction is computed (line 180), or on a missing `matched_size` there when the group size is not 0 (line 183);
- a `KeyError` on a missing `group_size` or `matched_size` where the pie slices are built (lines 114-115 and 118-119), or where the root sums its children (lines 190-191);
- a `TypeError` from adding or dividing a non-number.

Two behaviours of the code shape the model:

- **Node-key audit.** Line 151 calls `field_missing` with `replace_with_field="name"`, but the recursive call at line 104 drops that argument. So only a root without the node key is filled (from `name`, or with `""` when it has no `name`). The audit counts every missing node but fills none below the root.
- **Malformed `matches_json`.** The columns are copied one at a time (lines 44-48). A `json.loads` that fails at line 46 ends the copy, and line 49 catches the exception. The columns copied before it stay on the node, and the later ones are not copied.

## Model

| member | source | states |
|---|---|---|
| `RowMatcher.FirstMatch` | code/json_ontology_extender.py:39-41 | The result is `i` exactly when row `i` is the first row whose data-key cell equals the node's key string. It is `None` exactly when no row matches. |
| `RowMatcher.CopyFrom` | code/json_ontology_extender.py:42-48 | The column loop changes no field that a remaining column does not write. The data key and `matches_json` are never copied as themselves. |
| `RowMatcher.CopyFromCopies` | code/json_ontology_extender.py:42-48 | Every column other than the data key, `matches_json` and `matches` ends with the row's value. The exception is a column after a `matches_json` whose payload fails to parse. |
| `RowMatcher.CopyFromCopiesMatches` | code/json_ontology_extender.py:42-48 | A plain `matches` column that is not the data key ends with the row's value when no parsable `matches_json` comes after it. This covers a table with no `matches_json`, one whose payload fails to parse after it, and one whose payload parses before it. |
| `RowMatcher.CopyFromParsesPayload` | code/json_ontology_extender.py:42-48 | When `matches_json` parses and no `matches` column other than the data key comes after it, the node ends with the parsed payload under `matches`. This holds whatever columns come before it, including a `matches` column, which the payload overwrites. |
| `RowMatcher.CopyFromKeepsMatches` | code/json_ontology_extender.py:42-48 | When no `matches` column other than the data key is left to copy and no parsable payload is left, `matches` stays as it was. |
| `RowMatcher.CopyFromStopsAtFailedParse` | code/json_ontology_extender.py:35-49 | A payload that fails to parse aborts the loop, and every column after it keeps the node's previous value. |
| `RowMatcher.MergeFields` | code/json_ontology_extender.py:35-49 | A node with no key, or whose key matches no row, is unchanged. Otherwise the node receives the column loop over the first matching row. |
| `RowMatcher.MergeTree` | code/json_ontology_extender.py:27-54 | The tree keeps its shape. A node lacking the node key keeps its fields. |
| `RowMatcher.MergeTreeAll` | code/json_ontology_extender.py:52-54 | Each child is merged on its own with the same table and keys, and keeps its shape. |
| `RowMatcher.MergeTreePointwise` | code/json_ontology_extender.py:27-54 | Merging equals merging every node on its own fields, whatever its ancestors matched. |
| `RowMatcher.MergeTreeAllPointwise` | code/json_ontology_extender.py:52-54 | The same node-by-node characterisation, for a list of children. |
| `RowMatcher.ExampleTableFirstMatch` | code/json_ontology_extender.py:39-41 | In a two-row table, the key "42" selects the second row and not the first. |
| `RowMatcher.ExampleRowCopy` | code/json_ontology_extender.py:42-48 | Copying that row skips the data key, stores the parsed payload under `matches` and copies the plain column. |
| `RowMatcher.NumericKeyMatchesStringRow` | code/json_ontology_extender.py:34-48 | A node whose key is the number 42 matches the string row "42" and gains exactly the parsed `matches` and the plain column. |
| `Auditor.FieldMissing` | code/json_ontology_extender.py:89-106 | A missing field counts at least once. Children are never changed. Only a missing top-level node gets the replacement field, or `""`, when one is asked for. |
| `Auditor.FieldMissingAll` | code/json_ontology_extender.py:102-104 | The children are audited without replacement and come back unchanged. |
| `Auditor.AuditCountsMissing` | code/json_ontology_extender.py:89-106 | The count is the number of nodes in the subtree whose field is absent or null. |
| `Auditor.AuditAllCountsMissing` | code/json_ontology_extender.py:102-104 | The count over a list of children is the number of missing nodes among all their descendants. |
| `Auditor.AuditZeroIffComplete` | code/json_ontology_extender.py:95-104 | The count is zero if and only if every node of the subtree has a non-null field. |
| `Auditor.AuditIgnoresOtherFields` | code/json_ontology_extender.py:96-104 | Two trees that differ only in another field get the same count. |
| `Propagator.Accumulate` | code/json_ontology_extender.py:57-69 | The node stores and returns its own value (0 if absent) plus its children's totals. Only that field changes anywhere. Every node ends with a number. A numbered leaf is unchanged. |
| `Propagator.AccumulateAll` | code/json_ontology_extender.py:65-67 | The children's totals add up to the returned sum, and only the field changes. |
| `Propagator.AccumulateReturnsSubtreeSum` | code/json_ontology_extender.py:57-69 | The returned value is the sum of the field's previous values over the whole subtree. |
| `Propagator.AccumulateAllReturnsSums` | code/json_ontology_extender.py:65-67 | The summed child totals equal the sum over all descendants. |
| `Propagator.AccumulateSumsSubtrees` | code/json_ontology_extender.py:57-69 | Afterwards, every node holds the total of its whole subtree's previous values, and nothing else changes. |
| `Propagator.AccumulateAllSumsSubtrees` | code/json_ontology_extender.py:65-67 | The same characterisation, for a list of children. |
| `Propagator.AccumulateNotIdempotent` | code/json_ontology_extender.py:62-68 | Accumulating twice differs from accumulating once: an ancestor's stored total is used as its base again. |
| `Statistics.Ratio` | code/json_ontology_extender.py:180-183 | The fraction is 0 for a group size of 0. Otherwise the fraction times the group size is the matched size. |
| `Statistics.CalcStats` | code/json_ontology_extender.py:176-183 | Every node ends with an `occurrence_fraction` consistent with its own sizes. Nothing else changes anywhere. |
| `Statistics.CalcStatsAll` | code/json_ontology_extender.py:177-179 | Each child subtree gets consistent fractions, and only the fraction changes. |
| `Statistics.CalcStatsPointwise` | code/json_ontology_extender.py:176-183 | The pass equals setting each node's fraction from that node's sizes alone. |
| `Statistics.CalcStatsAllPointwise` | code/json_ontology_extender.py:177-179 | The same characterisation, for a list of children. |
| `Statistics.CalcRootStats` | code/json_ontology_extender.py:186-198 | The root's sizes become the sums over its immediate children, and its fraction is recomputed from them with the zero guard. The children and all other fields are untouched. |
| `PieChart.AddPieData` | code/json_ontology_extender.py:109-124 | The node gets two slices: its fraction and 1 minus it, with indices 0 and 1 and its sizes. No other field changes. Recursion reaches every node exactly when the flag is set. |
| `PieChart.AddPieDataAll` | code/json_ontology_extender.py:122-124 | Every descendant gets consistent slices, and only `pie_data` changes. |
| `PieChart.AddPieDataPointwise` | code/json_ontology_extender.py:109-124 | The recursive pass equals attaching each node's slices from its own fields. |
| `PieChart.AddPieDataAllPointwise` | code/json_ontology_extender.py:122-124 | The same characterisation, for a list of children. |
| `PieChart.SetFieldInAllNodes` | code/json_ontology_extender.py:72-86 | Every node ends with the value in both pie slices, or in its own field when `in_pie_data` is false. The shape is kept. |
| `PieChart.SetFieldInAllNodesAll` | code/json_ontology_extender.py:84-86 | The same guarantee, for every descendant of a list of children. |
| `PieChart.SetFieldPointwise` | code/json_ontology_extender.py:72-86 | The setter equals one node-by-node rewrite that changes nothing else. |
| `PieChart.SetFieldAllPointwise` | code/json_ontology_extender.py:84-86 | The same characterisation, for a list of children. |
| `Pipeline.Prepare` | code/json_ontology_extender.py:146-155 | Merging and then auditing the node key keep the tree's shape. |
| `Pipeline.PrepareFillsOnlyRoot` | code/json_ontology_extender.py:146-155 | Each child subtree of the prepared tree is exactly the merged child, since the audit fills nothing below the root. The root keeps its merged fields when its node key is present. Otherwise the node key is filled from the merged `name`, or with `""` when there is none. |
| `Pipeline.Propagate` | code/json_ontology_extender.py:156-159 | Afterwards every node has a numeric size and only that size changes. When some node lacked it, every node holds its subtree total of the supplied values. A tree where nothing was missing is returned unchanged. |
| `Pipeline.Sizes` | code/json_ontology_extender.py:156-159 | After both propagations, every node has numeric group and matched sizes. |
| `Pipeline.GroupThenMatched` | code/json_ontology_extender.py:57-69 | Accumulating the group size leaves every subtree total of the matched size alone. |
| `Pipeline.SizesPointwise` | code/json_ontology_extender.py:156-159 | Both propagations equal one node-by-node rewrite of the prepared tree. Each size missing somewhere ends, at every node, as the subtree total of the supplied values. A size present everywhere is kept, and no other field changes. Whether the matched size is summed is decided on the prepared tree. |
| `Pipeline.Stats` | code/json_ontology_extender.py:161-164 | Every node has a consistent fraction, and the root's sizes are the sums over its children. Each child subtree is the reference rewrite that sets only the fraction. The root's other fields are kept. |
| `Pipeline.Run` | code/json_ontology_extender.py:143-166 | The run fails (`None`) exactly when the table lacks the data-key column or the prepared tree cannot pass the later stages. Otherwise the shape is kept, and every node has numeric sizes, a consistent fraction and consistent pie slices. The two slice fractions sum to 1, and a group size of 0 gives fraction 0. The root holds its children's sums. |
| `Pipeline.ChildTotalsAfterAccumulation` | code/json_ontology_extender.py:57-69 | After accumulation, a branch's children hold totals adding up to the subtree total less the branch's own value. |
| `Pipeline.RootTotalAfterPropagation` | code/json_ontology_extender.py:156-159 | The root's children end with that amount after propagation, or with their supplied values when nothing was missing. |
| `Pipeline.RootFromSizes` | code/json_ontology_extender.py:161-166 | After the stages that follow preparation (`Finish`), the root's sizes are the child sums left by propagation. Fractions and pie data do not disturb them. |
| `Pipeline.GroupAfterSizes` | code/json_ontology_extender.py:156-157 | The root's children's group sizes after both propagations, in terms of the prepared tree. |
| `Pipeline.MatchedAfterSizes` | code/json_ontology_extender.py:158-159 | The same for matched sizes. The earlier group propagation changes nothing this one reads. |
| `Pipeline.RootOverride` | code/json_ontology_extender.py:156-164 | Stated for a prepared tree; `Run` is `Finish` applied to the prepared tree. If a size was missing anywhere, the root ends with the whole-tree total less its own supplied value, which is discarded. Otherwise it ends with its children's supplied values. |
| `Pipeline.ScenarioPrepared` | code/json_ontology_extender.py:143-155 | With a table holding only the data-key column and no rows, and a tree where every node has its name, preparation changes nothing. |
| `Pipeline.AccumulateOverTwoLeaves` | code/json_ontology_extender.py:57-69 | Two numbered leaves under an unsized root are kept, and the root gets their sum. |
| `Pipeline.SizesOverTwoLeaves` | code/json_ontology_extender.py:156-159 | Both sizes are accumulated onto an unsized root over two sized leaves. |
| `Pipeline.StatsOverTwoLeaves` | code/json_ontology_extender.py:161-164 | Each leaf gets its own fraction, and the root gets the leaves' sums. |
| `Pipeline.FinishOverTwoLeaves` | code/json_ontology_extender.py:156-166 | The leaves get their own fractions, the root gets the sums and a consistent fraction, and all three carry consistent slices. |
| `Pipeline.ScenarioMissingColumn` | code/json_ontology_extender.py:143 | The scenario tree with a table that has no data-key column: the run fails, as line 143 raises `KeyError`. |
| `Pipeline.ScenarioOutcome` | code/json_ontology_extender.py:146-166 | Root with leaves A (10, 2) and B (20, 8), a table with no rows: the fractions are 0.2 and 0.4, the root holds 30, 10 and 1/3, and every node has slices. |

## Left out

- File input and output: reading the tree and table (lines 136-141) and writing JSON (lines 168-173). The tree and table arrive as values, and the result is returned.
- The `NpEncoder` serialiser (lines 15-24) and the command-line entry point (lines 201-262): they are outside the annotation core.
- Logging, and with it the `report_missing` flag of `field_missing`. The flag only logs, so the audit takes no such argument. The node-key audit's count is likewise only logged.
- The `.astype(str)` conversion of the data-key column (line 143). The table is taken with that column already holding strings. A non-string cell never matches.
- Pandas indexing: a table whose index labels repeat. The model reads the first matching row by position.
- Floating-point rounding. Sizes and fractions are exact reals, so the root's fraction is exactly 1/3 where the source stores the nearest double.
- The distinction between Python `int` and `float`. Numbers are one kind of value, `Num(x: real)`, so `toStr` cannot give `"42"` for the integer 42 and `"42.0"` for the float 42.0. `RowMatcher.NumericKeyMatchesStringRow` takes the integer reading, where a float-valued node key would not match the row `"42"`.
- Missing table cells. pandas reads an empty cell of the table as NaN, and line 48 copies it onto the node. There it counts as present for `field_missing`, and a NaN size makes every fraction and pie slice that reads it NaN, so the slices would no longer add up to 1. The model has no NaN: every table cell is a JSON value.
- Python's `bool` as an integer. A `true` or `false` size counts as a non-number here, where Python would add it as 1 or 0.
- A column, or a node field other than the child list, named `children`: field keys exclude that name, so such a column cannot be represented.
- `Pipeline.Run`: fails (`None`) unless every present size is a number everywhere. The source does not read a matched size at a node whose group size is 0, at the root or below the root's children, so it would survive a non-number there. This holds only when no node lacks `matched_size`: otherwise line 159 runs the accumulation, and line 67 adds that value and raises `TypeError`.
- `RowMatcher.CopyFromParsesPayload`: says nothing when a `matches` column that is not the data key follows `matches_json`. In that case the plain column's value overwrites the parsed payload, as `RowMatcher.CopyFromCopiesMatches` states.
- `Auditor.FieldMissing`: its own contract bounds the count only from below. The exact count is stated by `Auditor.AuditCountsMissing`.
- Cyclic trees: the datatype cannot express them.

=== FILE: auditor.dfy ===
/** The missing-field audit (`field_missing`): counts the nodes of a subtree
    whose field is absent or null, and optionally fills the field on the
    top-level node only, because the recursive call drops both options. */
module Auditor {
  import opened Json
  import opened Tree

  /** `node.get(src, "")`: the value a missing field is replaced with. */
  function Fallback(t: Node, src: Key): Value
  {
    if src in t.fields then t.fields[src] else Str("")
  }

  /** Returns the count of missing nodes and the tree as the audit leaves it.
      Reporting is logging only and is not modelled; `replaceWith` is the
      optional `replace_with_field`. */
  function FieldMissing(t: Node, k: Key, replaceWith: Option<Key>): (r: (nat, Node))
    ensures Missing(t, k) ==> r.0 >= 1
    ensures r.1.Branch? == t.Branch? && Kids(r.1) == Kids(t)
    ensures !Missing(t, k) || replaceWith == None ==> r.1 == t
    ensures Missing(t, k) && replaceWith.Some? ==>
              r.1.fields == t.fields[k := Fallback(t, replaceWith.value)]
    decreases t
  {
    var own := if Missing(t, k) then 1 else 0;
    var f := if Missing(t, k) && replaceWith.Some?
             then t.fields[k := Fallback(t, replaceWith.value)]
             else t.fields;
    match t
    case Leaf(_) => (own, Leaf(f))
    case Branch(_, cs) =>
      var (c, cs') := FieldMissingAll(cs, k);
      (own + c, Branch(f, cs'))
  }

  /** The loop over the children; each child is audited without reporting
      and without replacement. */
  function FieldMissingAll(ts: seq<Node>, k: Key): (r: (nat, seq<Node>))
    ensures r.1 == ts
    decreases ts
  {
    if ts == [] then (0, [])
    else
      var (c, t') := FieldMissing(ts[0], k, None);
      var (d, ts') := FieldMissingAll(ts[1..], k);
      (c + d, [t'] + ts')
  }

  /** Reference: how many nodes of a listing lack the field. */
  function CountMissing(ns: seq<Node>, k: Key): nat
  {
    if ns == [] then 0
    else (if Missing(ns[0], k) then 1 else 0) + CountMissing(ns[1..], k)
  }

  lemma {:induction false} CountMissingAppend(a: seq<Node>, b: seq<Node>, k: Key)
    ensures CountMissing(a + b, k) == CountMissing(a, k) + CountMissing(b, k)
    decreases |a|
  {
    if a == [] {
      assert a + b == b;
    } else {
      assert (a + b)[1..] == a[1..] + b;
      CountMissingAppend(a[1..], b, k);
    }
  }

  lemma {:induction false} CountMissingZero(ns: seq<Node>, k: Key)
    ensures CountMissing(ns, k) == 0 <==> forall m :: m in ns ==> !Missing(m, k)
    decreases |ns|
  {
    if ns != [] {
      CountMissingZero(ns[1..], k);
      assert forall m :: m in ns[1..] ==> m in ns;
      assert forall m :: m in ns ==> m == ns[0] || m in ns[1..];
    }
  }

  /** The count is the number of nodes, over the whole subtree, whose field is
      absent or null, whatever the replacement option. */
  lemma {:induction false} AuditCountsMissing(t: Node, k: Key, replaceWith: Option<Key>)
    ensures FieldMissing(t, k, replaceWith).0 == CountMissing(Nodes(t), k)
    decreases t
  {
    var ns := Nodes(t);
    assert CountMissing(ns, k) == (if Missing(t, k) then 1 else 0) + CountMissing(ns[1..], k);
    match t
    case Leaf(_) =>
      assert ns[1..] == [];
    case Branch(_, cs) =>
      assert ns[1..] == NodesOf(cs);
      AuditAllCountsMissing(cs, k);
  }

  lemma {:induction false} AuditAllCountsMissing(ts: seq<Node>, k: Key)
    ensures FieldMissingAll(ts, k).0 == CountMissing(NodesOf(ts), k)
    decreases ts
  {
    if ts != [] {
      AuditCountsMissing(ts[0], k, None);
      AuditAllCountsMissing(ts[1..], k);
      CountMissingAppend(Nodes(ts[0]), NodesOf(ts[1..]), k);
    }
  }

  /** The audit reports zero exactly when every node of the subtree holds a
      non-null value for the field. */
  lemma AuditZeroIffComplete(t: Node, k: Key, replaceWith: Option<Key>)
    ensures FieldMissing(t, k, replaceWith).0 == 0 <==> forall m :: m in Nodes(t) ==> !Missing(m, k)
  {
    AuditCountsMissing(t, k, replaceWith);
    CountMissingZero(Nodes(t), k);
  }

  /** Listings that agree off `k`, node by node, lack any other field at the
      same number of nodes. */
  lemma {:induction false} CountMissingAgree(xs: seq<Node>, ys: seq<Node>, k: Key, j: Key)
    requires |xs| == |ys| && j != k
    requires forall i :: 0 <= i < |xs| ==> AgreeOff(xs[i].fields, ys[i].fields, k)
    ensures CountMissing(xs, j) == CountMissing(ys, j)
    decreases |xs|
  {
    if xs != [] {
      CountMissingAgree(xs[1..], ys[1..], k, j);
      assert AgreeOff(xs[0].fields, ys[0].fields, k);
    }
  }

  /** Changing one field leaves the audit count of any other field alone. */
  lemma AuditIgnoresOtherFields(a: Node, b: Node, k: Key, j: Key)
    requires AgreeExcept(a, b, k) && j != k
    ensures FieldMissing(a, j, None).0 == FieldMissing(b, j, None).0
  {
    NodesAgree(a, b, k);
    CountMissingAgree(Nodes(a), Nodes(b), k, j);
    AuditCountsMissing(a, j, None);
    AuditCountsMissing(b, j, None);
  }
}

=== FILE: json.dfy ===
/** JSON-like values as they appear in the ontology tree and in the rows of
    the external table. Python's int and float both become exact reals. */
module Json {

  /** The usual optional value, used for partial lookups and for a JSON parse
      that may fail. */
  datatype Option<+T> = None | Some(value: T)

  datatype Value =
    | Null
    | Bool(b: bool)
    | Num(x: real)
    | Str(s: string)
    | Arr(items: seq<Value>)
    | Obj(members: map<string, Value>)
}

=== FILE: pie_data.dfy ===
/** The pie-chart adapter (`add_pie_data_to_node_and_children`) and the
    uniform field setter (`set_field_in_all_nodes`). */
module PieChart {
  import opened Json
  import opened Tree

  const IndexKey: string := "index"

  /** What the adapter reads of a node without failing: a numeric fraction
      and both size fields (of any value). */
  predicate PieReady(n: Node)
  {
    HasNum(n, OccurrenceFraction) && GroupSize in n.fields && MatchedSize in n.fields
  }

  /** One entry of `pie_data`: exactly the four keys, with the given values. */
  predicate IsSlice(v: Value, index: real, fraction: real, group: Value, matched: Value)
  {
    && v.Obj?
    && v.members.Keys == {OccurrenceFraction, IndexKey, GroupSize, MatchedSize}
    && v.members[OccurrenceFraction] == Num(fraction)
    && v.members[IndexKey] == Num(index)
    && v.members[GroupSize] == group
    && v.members[MatchedSize] == matched
  }

  /** The node carries a two-entry `pie_data`: entry 0 with the node's own
      fraction, entry 1 with its complement, both with the node's sizes. */
  predicate PieConsistent(n: Node)
  {
    && PieReady(n)
    && PieData in n.fields
    && n.fields[PieData].Arr?
    && |n.fields[PieData].items| == 2
    && IsSlice(n.fields[PieData].items[0], 0.0, Own(n, OccurrenceFraction),
               n.fields[GroupSize], n.fields[MatchedSize])
    && IsSlice(n.fields[PieData].items[1], 1.0, 1.0 - Own(n, OccurrenceFraction),
               n.fields[GroupSize], n.fields[MatchedSize])
  }

  /** The `occurrence_fraction` stored in entry `i` of a consistent
      `pie_data`. */
  function SliceFraction(n: Node, i: nat): real
    requires PieConsistent(n) && i < 2
  {
    n.fields[PieData].items[i].members[OccurrenceFraction].x
  }

  function Slice(index: real, fraction: real, group: Value, matched: Value): (v: Value)
    ensures IsSlice(v, index, fraction, group, matched)
  {
    Obj(map[IndexKey := Num(index),
            OccurrenceFraction := Num(fraction),
            GroupSize := group,
            MatchedSize := matched])
  }

  function PieOf(n: Node): Value
    requires PieReady(n)
  {
    var f := Own(n, OccurrenceFraction);
    Arr([Slice(0.0, f, n.fields[GroupSize], n.fields[MatchedSize]),
         Slice(1.0, 1.0 - f, n.fields[GroupSize], n.fields[MatchedSize])])
  }

  /** Attaches `pie_data` to the node, and to every descendant when
      `applyToChildren` holds: nested calls always recurse, so the flag only
      ever stops the recursion at the top. */
  function AddPieData(t: Node, applyToChildren: bool): (r: Node)
    requires PieReady(t)
    requires applyToChildren ==> forall m :: m in Nodes(t) ==> PieReady(m)
    ensures PieConsistent(r)
    ensures forall j :: j != PieData ==>
              (j in r.fields <==> j in t.fields) && (j in t.fields ==> r.fields[j] == t.fields[j])
    ensures SameShape(t, r)
    ensures !applyToChildren ==> Kids(r) == Kids(t)
    ensures applyToChildren ==> AgreeExcept(t, r, PieData)
    ensures applyToChildren ==> forall m :: m in Nodes(r) ==> PieConsistent(m)
    decreases t
  {
    DistinctKeys();
    var f := t.fields[PieData := PieOf(t)];
    SameShapeRefl(t);
    match t
    case Leaf(_) =>
      assert Nodes(Leaf(f)) == [Leaf(f)];
      Leaf(f)
    case Branch(_, cs) =>
      if applyToChildren then Branch(f, AddPieDataAll(cs))
      else Branch(f, cs)
  }

  function AddPieDataAll(ts: seq<Node>): (rs: seq<Node>)
    requires forall m :: m in NodesOf(ts) ==> PieReady(m)
    ensures |rs| == |ts|
    ensures forall i :: 0 <= i < |ts| ==> SameShape(ts[i], rs[i]) && AgreeExcept(ts[i], rs[i], PieData)
    ensures forall m :: m in NodesOf(rs) ==> PieConsistent(m)
    decreases ts
  {
    if ts == [] then []
    else [AddPieData(ts[0], true)] + AddPieDataAll(ts[1..])
  }

  /** Reference rewrite of one node: only `pie_data` is set. */
  function WithPie(): Node -> Fields
  {
    (n: Node) => if PieReady(n) then n.fields[PieData := PieOf(n)] else n.fields
  }

  /** With recursion on, every node gets the `pie_data` of its own fields and
      nothing else changes anywhere. */
  lemma {:induction false} AddPieDataPointwise(t: Node)
    requires forall m :: m in Nodes(t) ==> PieReady(m)
    ensures AddPieData(t, true) == MapFields(t, WithPie())
    decreases t
  {
    assert t in Nodes(t);
    match t
    case Leaf(_) =>
    case Branch(_, cs) =>
      AddPieDataAllPointwise(cs);
  }

  lemma {:induction false} AddPieDataAllPointwise(ts: seq<Node>)
    requires forall m :: m in NodesOf(ts) ==> PieReady(m)
    ensures AddPieDataAll(ts) == MapFieldsAll(ts, WithPie())
    decreases ts
  {
    if ts != [] {
      AddPieDataPointwise(ts[0]);
      AddPieDataAllPointwise(ts[1..]);
    }
  }

  /** `pie_data` holds at least two dictionaries, as the setter indexes 0 and 1. */
  predicate HasPieSlots(n: Node)
  {
    && PieData in n.fields
    && n.fields[PieData].Arr?
    && |n.fields[PieData].items| >= 2
    && n.fields[PieData].items[0].Obj?
    && n.fields[PieData].items[1].Obj?
  }

  /** The value of `k` in entry `i` of the node's `pie_data`, if any. */
  function SlotValue(n: Node, i: int, k: Key): Option<Value>
    requires HasPieSlots(n) && 0 <= i < 2
  {
    var members := n.fields[PieData].items[i].members;
    if k in members then Some(members[k]) else None
  }

  function SetInSlots(n: Node, k: Key, v: Value): (f: Fields)
    requires HasPieSlots(n)
  {
    var items := n.fields[PieData].items;
    var items' := items[0 := Obj(items[0].members[k := v])][1 := Obj(items[1].members[k := v])];
    n.fields[PieData := Arr(items')]
  }

  /** Sets `k` to `v` on every node, either inside both `pie_data` entries or
      on the node itself. */
  function SetFieldInAllNodes(t: Node, k: Key, v: Value, inPieData: bool): (r: Node)
    requires inPieData ==> forall m :: m in Nodes(t) ==> HasPieSlots(m)
    ensures SameShape(t, r)
    ensures inPieData ==> forall m :: m in Nodes(r) ==>
              HasPieSlots(m) && SlotValue(m, 0, k) == Some(v) && SlotValue(m, 1, k) == Some(v)
    ensures !inPieData ==> forall m :: m in Nodes(r) ==> k in m.fields && m.fields[k] == v
    decreases t
  {
    assert t in Nodes(t);
    var f := if inPieData then SetInSlots(t, k, v) else t.fields[k := v];
    match t
    case Leaf(_) =>
      assert Nodes(Leaf(f)) == [Leaf(f)];
      Leaf(f)
    case Branch(_, cs) => Branch(f, SetFieldInAllNodesAll(cs, k, v, inPieData))
  }

  function SetFieldInAllNodesAll(ts: seq<Node>, k: Key, v: Value, inPieData: bool): (rs: seq<Node>)
    requires inPieData ==> forall m :: m in NodesOf(ts) ==> HasPieSlots(m)
    ensures |rs| == |ts|
    ensures forall i :: 0 <= i < |ts| ==> SameShape(ts[i], rs[i])
    ensures inPieData ==> forall m :: m in NodesOf(rs) ==>
              HasPieSlots(m) && SlotValue(m, 0, k) == Some(v) && SlotValue(m, 1, k) == Some(v)
    ensures !inPieData ==> forall m :: m in NodesOf(rs) ==> k in m.fields && m.fields[k] == v
    decreases ts
  {
    if ts == [] then []
    else [SetFieldInAllNodes(ts[0], k, v, inPieData)] + SetFieldInAllNodesAll(ts[1..], k, v, inPieData)
  }

  /** Reference rewrite of one node for the setter. */
  function Setter(k: Key, v: Value, inPieData: bool): Node -> Fields
  {
    (n: Node) =>
      if !inPieData then n.fields[k := v]
      else if HasPieSlots(n) then SetInSlots(n, k, v)
      else n.fields
  }

  /** The setter rewrites each node on its own and changes nothing but the
      target field (or the two `pie_data` entries) anywhere in the tree. */
  lemma {:induction false} SetFieldPointwise(t: Node, k: Key, v: Value, inPieData: bool)
    requires inPieData ==> forall m :: m in Nodes(t) ==> HasPieSlots(m)
    ensures SetFieldInAllNodes(t, k, v, inPieData) == MapFields(t, Setter(k, v, inPieData))
    decreases t
  {
    assert t in Nodes(t);
    match t
    case Leaf(_) =>
    case Branch(_, cs) =>
      SetFieldAllPointwise(cs, k, v, inPieData);
  }

  lemma {:induction false} SetFieldAllPointwise(ts: seq<Node>, k: Key, v: Value, inPieData: bool)
    requires inPieData ==> forall m :: m in NodesOf(ts) ==> HasPieSlots(m)
    ensures SetFieldInAllNodesAll(ts, k, v, inPieData) == MapFieldsAll(ts, Setter(k, v, inPieData))
    decreases ts
  {
    if ts != [] {
      SetFieldPointwise(ts[0], k, v, inPieData);
      SetFieldAllPointwise(ts[1..], k, v, inPieData);
    }
  }
}

=== FILE: pipeline.dfy ===
/** The in-memory pipeline of `add_data_to_ontology_file`: merge the table,
    audit the node key, accumulate missing sizes, compute fractions, override
    the root, and attach pie data. */
module Pipeline {
  import opened Json
  import opened Tree
  import opened RowMatcher
  import opened Auditor
  import opened Propagator
  import opened Statistics
  import opened PieChart

  /** Merge the table into the tree, then audit the node key; a node key
      missing at the root is filled from `name` (the audit's count is only
      logged). */
  function Prepare(root: Node, tb: Table, nodeKey: Key, dataKey: Key,
                   toStr: Value -> string, parse: string -> Option<Value>): (r: Node)
    requires WellFormed(tb)
    ensures SameShape(root, r)
  {
    var merged := MergeTree(root, tb, nodeKey, dataKey, toStr, parse);
    var audited := FieldMissing(merged, nodeKey, Some(NameKey)).1;
    SameShapeRefl(merged);
    assert SameShape(merged, audited);
    SameShapeTrans(root, merged, audited);
    audited
  }

  /** Preparation merges every node, and the audit then fills nothing below
      the root: each child subtree is exactly the merged child. The root
      keeps its merged fields when its node key is present; otherwise the
      node key is filled from the merged `name`, or with `""`. */
  lemma PrepareFillsOnlyRoot(root: Node, tb: Table, nodeKey: Key, dataKey: Key,
                             toStr: Value -> string, parse: string -> Option<Value>)
    requires WellFormed(tb)
    ensures var r := Prepare(root, tb, nodeKey, dataKey, toStr, parse);
            forall i :: 0 <= i < |Kids(root)| ==>
              Kids(r)[i] == MergeTree(Kids(root)[i], tb, nodeKey, dataKey, toStr, parse)
    ensures var r := Prepare(root, tb, nodeKey, dataKey, toStr, parse);
            var f := MergeFields(root.fields, tb, nodeKey, dataKey, toStr, parse);
            && (nodeKey in f && f[nodeKey] != Null ==> r.fields == f)
            && (nodeKey !in f || f[nodeKey] == Null ==>
                  r.fields == f[nodeKey := if NameKey in f then f[NameKey] else Str("")])
  {
  }

  /** A size field is accumulated over the tree only when some node lacks
      it; otherwise the tree is kept as it is. */
  function Propagate(t: Node, k: Key): (r: Node)
    requires AllNumOrAbsent(t, k)
    ensures AllHaveNum(r, k)
    ensures AgreeExcept(t, r, k) && SameShape(t, r)
    ensures FieldMissing(t, k, None).0 == 0 ==> r == t
    ensures FieldMissing(t, k, None).0 > 0 ==> r == MapFields(t, Totals(k))
  {
    if FieldMissing(t, k, None).0 > 0 then
      AccumulateSumsSubtrees(t, k);
      Accumulate(t, k).1
    else
      AuditZeroIffComplete(t, k, None);
      assert forall m :: m in Nodes(t) ==> !Missing(m, k) && NumOrAbsent(m, k);
      assert AllHaveNum(t, k);
      AgreeExceptRefl(t, k);
      SameShapeRefl(t);
      t
  }

  /** What the later stages need of the prepared tree: a root with a
      `children` key, and sizes that are numbers wherever they are present. */
  predicate Ready(t: Node)
  {
    t.Branch? && AllNumOrAbsent(t, GroupSize) && AllNumOrAbsent(t, MatchedSize)
  }

  /** Both size fields, propagated in the order of the source. */
  function Sizes(t: Node): (r: Node)
    requires Ready(t)
    ensures r.Branch? && SameShape(t, r)
    ensures AllHaveNum(r, GroupSize) && AllHaveNum(r, MatchedSize)
  {
    DistinctKeys();
    var withGroup := Propagate(t, GroupSize);
    AgreeExceptKeepsNumbers(t, withGroup, GroupSize, MatchedSize);
    var withMatched := Propagate(withGroup, MatchedSize);
    AgreeExceptKeepsNumbers(withGroup, withMatched, MatchedSize, GroupSize);
    SameShapeTrans(t, withGroup, withMatched);
    withMatched
  }

  /** Reference rewrite of one node for the two propagations: each size
      that is to be accumulated holds the node's subtree total of the
      supplied values, and every other field is kept. */
  function SizeTotals(group: bool, matched: bool): Node -> Fields
  {
    (n: Node) =>
      var f := if group then n.fields[GroupSize := Num(SubtreeSum(n, GroupSize))] else n.fields;
      if matched then f[MatchedSize := Num(SubtreeSum(n, MatchedSize))] else f
  }

  /** Accumulating the group size leaves every subtree's total of the
      matched size alone, so the two accumulations compose node by node. */
  lemma GroupThenMatched(n: Node)
    ensures Totals(MatchedSize)(MapFields(n, Totals(GroupSize))) == SizeTotals(true, true)(n)
  {
    DistinctKeys();
    var mn := MapFields(n, Totals(GroupSize));
    MapFieldsAgree(n, Totals(GroupSize), GroupSize);
    NodesAgree(n, mn, GroupSize);
    SumOwnAgree(Nodes(n), Nodes(mn), GroupSize, MatchedSize);
  }

  /** Both propagations together: a size missing somewhere in the prepared
      tree ends, at every node, as the subtree total of the supplied values;
      a size present everywhere is kept; no other field changes. Whether the
      matched size is accumulated depends on the prepared tree alone. */
  lemma SizesPointwise(t: Node)
    requires Ready(t)
    ensures Sizes(t) == MapFields(t, SizeTotals(FieldMissing(t, GroupSize, None).0 > 0,
                                                FieldMissing(t, MatchedSize, None).0 > 0))
  {
    DistinctKeys();
    var group := FieldMissing(t, GroupSize, None).0 > 0;
    var matched := FieldMissing(t, MatchedSize, None).0 > 0;
    var g := SizeTotals(group, matched);
    var s1 := Propagate(t, GroupSize);
    AgreeExceptKeepsNumbers(t, s1, GroupSize, MatchedSize);
    AuditIgnoresOtherFields(t, s1, GroupSize, MatchedSize);
    var s2 := Propagate(s1, MatchedSize);
    assert Sizes(t) == s2;
    if group && matched {
      assert s2 == MapFields(MapFields(t, Totals(GroupSize)), Totals(MatchedSize));
      forall n | n in Nodes(t)
        ensures Totals(MatchedSize)(MapFields(n, Totals(GroupSize))) == g(n)
      {
        GroupThenMatched(n);
      }
      MapFieldsCompose(t, Totals(GroupSize), Totals(MatchedSize), g);
    } else if group {
      assert s2 == MapFields(t, Totals(GroupSize));
      MapFieldsCongruent(t, Totals(GroupSize), g);
    } else if matched {
      assert s2 == MapFields(t, Totals(MatchedSize));
      MapFieldsCongruent(t, Totals(MatchedSize), g);
    } else {
      assert s2 == t;
      MapFieldsKeeps(t, g);
    }
  }

  /** Fractions everywhere, then the root override. */
  function Stats(t: Node): (r: Node)
    requires t.Branch? && AllHaveNum(t, GroupSize) && AllHaveNum(t, MatchedSize)
    ensures r.Branch? && SameShape(t, r)
    ensures forall m :: m in Nodes(r) ==>
              FractionConsistent(m) && HasNum(m, GroupSize) && HasNum(m, MatchedSize)
    ensures Own(r, GroupSize) == SumOwn(r.children, GroupSize)
    ensures Own(r, MatchedSize) == SumOwn(r.children, MatchedSize)
    ensures forall i :: 0 <= i < |t.children| ==> r.children[i] == MapFields(t.children[i], WithFraction())
    ensures forall j :: j != GroupSize && j != MatchedSize && j != OccurrenceFraction ==>
              (j in r.fields <==> j in t.fields) && (j in t.fields ==> r.fields[j] == t.fields[j])
  {
    DistinctKeys();
    var fractions := CalcStats(t);
    CalcStatsPointwise(t);
    AgreeExceptKeepsNumbers(t, fractions, OccurrenceFraction, GroupSize);
    AgreeExceptKeepsNumbers(t, fractions, OccurrenceFraction, MatchedSize);
    assert forall c :: c in fractions.children ==> c in Nodes(fractions) by {
      forall c | c in fractions.children
        ensures c in Nodes(fractions)
      {
        var i :| 0 <= i < |fractions.children| && fractions.children[i] == c;
        ChildNodesIncluded(fractions, i);
      }
    }
    var root := CalcRootStats(fractions);
    assert Nodes(root) == [root] + NodesOf(fractions.children);
    SameShapeRefl(fractions);
    assert SameShape(fractions, root);
    SameShapeTrans(t, fractions, root);
    root
  }

  /** The stages after preparation: propagate the sizes, compute the
      fractions, override the root, attach pie data. */
  function Finish(t: Node): Node
    requires Ready(t)
  {
    AddPieData(Stats(Sizes(t)), true)
  }

  /** The whole in-memory pipeline. `None` stands for the exception the
      source raises outside its `try` block: a table without the data-key
      column, or a prepared tree the later stages cannot process. */
  function Run(root: Node, tb: Table, nodeKey: Key, dataKey: Key,
               toStr: Value -> string, parse: string -> Option<Value>): (r: Option<Node>)
    requires WellFormed(tb)
    ensures r.Some? <==> dataKey in tb.columns && Ready(Prepare(root, tb, nodeKey, dataKey, toStr, parse))
    ensures r.Some? ==> SameShape(root, r.value) && r.value.Branch?
    ensures r.Some? ==> forall m :: m in Nodes(r.value) ==>
              && FractionConsistent(m)
              && PieConsistent(m)
              && HasNum(m, GroupSize) && HasNum(m, MatchedSize)
    ensures r.Some? ==> forall m :: m in Nodes(r.value) ==> SliceFraction(m, 0) + SliceFraction(m, 1) == 1.0
    ensures r.Some? ==> forall m :: m in Nodes(r.value) && Own(m, GroupSize) == 0.0 ==>
              Own(m, OccurrenceFraction) == 0.0
    ensures r.Some? ==> Own(r.value, GroupSize) == SumOwn(r.value.children, GroupSize)
    ensures r.Some? ==> Own(r.value, MatchedSize) == SumOwn(r.value.children, MatchedSize)
  {
    if dataKey !in tb.columns then None
    else
      var prepared := Prepare(root, tb, nodeKey, dataKey, toStr, parse);
      if !Ready(prepared) then None
      else
        DistinctKeys();
        var sized := Sizes(prepared);
        var stats := Stats(sized);
        var pie := AddPieData(stats, true);
        AgreeExceptKeepsFractions(stats, pie, PieData);
        AgreeExceptKeepsNumbers(stats, pie, PieData, GroupSize);
        AgreeExceptKeepsNumbers(stats, pie, PieData, MatchedSize);
        AgreeExceptSums(stats.children, pie.children, PieData, GroupSize);
        AgreeExceptSums(stats.children, pie.children, PieData, MatchedSize);
        SameShapeTrans(root, prepared, sized);
        SameShapeTrans(root, sized, stats);
        SameShapeTrans(root, stats, pie);
        Some(Finish(prepared))
  }

  /** The totals the accumulation leaves on the immediate children of a
      branch add up to the subtree total less the branch's own value. */
  lemma ChildTotalsAfterAccumulation(t: Node, k: Key)
    requires t.Branch? && AllNumOrAbsent(t, k)
    ensures SumOwn(Accumulate(t, k).1.children, k) == SubtreeSum(t, k) - Own(t, k)
  {
    AccumulateAllReturnsSums(t.children, k);
    var ns := Nodes(t);
    assert ns[1..] == NodesOf(t.children);
    assert SumOwn(ns, k) == Own(t, k) + SumOwn(ns[1..], k);
  }

  /** The root override after the propagation of one size field `k`: when
      `k` was missing somewhere, the root ends with the whole-tree total of
      the supplied values less the root's own supplied value; otherwise it
      ends with the sum of its children's supplied values. */
  lemma {:induction false} RootTotalAfterPropagation(t: Node, k: Key)
    requires t.Branch? && AllNumOrAbsent(t, k)
    ensures FieldMissing(t, k, None).0 > 0 ==>
              SumOwn(Propagate(t, k).children, k) == SubtreeSum(t, k) - Own(t, k)
    ensures FieldMissing(t, k, None).0 == 0 ==>
              SumOwn(Propagate(t, k).children, k) == SumOwn(t.children, k)
  {
    if FieldMissing(t, k, None).0 > 0 {
      ChildTotalsAfterAccumulation(t, k);
    }
  }

  /** The sizes the last stages leave on the root are the sums, over its
      children, of the sizes the propagation left there. */
  lemma RootFromSizes(t: Node)
    requires Ready(t)
    ensures Own(Finish(t), GroupSize) == SumOwn(Sizes(t).children, GroupSize)
    ensures Own(Finish(t), MatchedSize) == SumOwn(Sizes(t).children, MatchedSize)
  {
    DistinctKeys();
    var s := Sizes(t);
    var s3 := CalcStats(s);
    var s4 := Stats(s);
    assert s4.children == s3.children;
    AgreeExceptSums(s.children, s3.children, OccurrenceFraction, GroupSize);
    AgreeExceptSums(s.children, s3.children, OccurrenceFraction, MatchedSize);
  }

  /** The group size on the root's children after both propagations. */
  lemma GroupAfterSizes(t: Node)
    requires Ready(t)
    ensures FieldMissing(t, GroupSize, None).0 > 0 ==>
              SumOwn(Sizes(t).children, GroupSize) == SubtreeSum(t, GroupSize) - Own(t, GroupSize)
    ensures FieldMissing(t, GroupSize, None).0 == 0 ==>
              SumOwn(Sizes(t).children, GroupSize) == SumOwn(t.children, GroupSize)
  {
    DistinctKeys();
    var s1 := Propagate(t, GroupSize);
    AgreeExceptKeepsNumbers(t, s1, GroupSize, MatchedSize);
    var s2 := Propagate(s1, MatchedSize);
    AgreeExceptSums(s1.children, s2.children, MatchedSize, GroupSize);
    RootTotalAfterPropagation(t, GroupSize);
  }

  /** The matched size on the root's children after both propagations. The
      group propagation runs first but changes nothing the matched one
      reads, so the outcome depends on the prepared tree alone. */
  lemma {:induction false} MatchedAfterSizes(t: Node)
    requires Ready(t)
    ensures FieldMissing(t, MatchedSize, None).0 > 0 ==>
              SumOwn(Sizes(t).children, MatchedSize) == SubtreeSum(t, MatchedSize) - Own(t, MatchedSize)
    ensures FieldMissing(t, MatchedSize, None).0 == 0 ==>
              SumOwn(Sizes(t).children, MatchedSize) == SumOwn(t.children, MatchedSize)
  {
    DistinctKeys();
    var s1 := Propagate(t, GroupSize);
    AgreeExceptKeepsNumbers(t, s1, GroupSize, MatchedSize);
    AuditIgnoresOtherFields(t, s1, GroupSize, MatchedSize);
    RootTotalAfterPropagation(s1, MatchedSize);
    NodesAgree(t, s1, GroupSize);
    SumOwnAgree(Nodes(t), Nodes(s1), GroupSize, MatchedSize);
    AgreeExceptSums(t.children, s1.children, GroupSize, MatchedSize);
    assert Own(s1, MatchedSize) == Own(t, MatchedSize);
  }

  /** The root override, in terms of the prepared tree `t` (`Run` is
      `Finish` of the prepared tree): for each size, when it was missing
      somewhere, the root ends with the whole-tree total of the supplied
      values less the root's own supplied value (which is discarded);
      otherwise with the sum of its children's supplied values. */
  lemma RootOverride(t: Node)
    requires Ready(t)
    ensures FieldMissing(t, GroupSize, None).0 > 0 ==>
              Own(Finish(t), GroupSize) == SubtreeSum(t, GroupSize) - Own(t, GroupSize)
    ensures FieldMissing(t, GroupSize, None).0 == 0 ==>
              Own(Finish(t), GroupSize) == SumOwn(t.children, GroupSize)
    ensures FieldMissing(t, MatchedSize, None).0 > 0 ==>
              Own(Finish(t), MatchedSize) == SubtreeSum(t, MatchedSize) - Own(t, MatchedSize)
    ensures FieldMissing(t, MatchedSize, None).0 == 0 ==>
              Own(Finish(t), MatchedSize) == SumOwn(t.children, MatchedSize)
  {
    RootFromSizes(t);
    GroupAfterSizes(t);
    MatchedAfterSizes(t);
  }

  // A worked scenario: two pre-populated leaves under a root without sizes.

  const GroupValue: Key := "group_value"

  function ScenarioLeaf(name: string, value: string, group: real, matched: real): Node
  {
    Leaf(map[NameKey := Str(name), GroupValue := Str(value),
             GroupSize := Num(group), MatchedSize := Num(matched)])
  }

  function ScenarioTree(): Node
  {
    Branch(map[NameKey := Str("root")],
           [ScenarioLeaf("A", "x", 10.0, 2.0), ScenarioLeaf("B", "y", 20.0, 8.0)])
  }

  /** With a table that has the data-key column but no rows nothing is
      merged, and every node already has its name, so preparation keeps the
      tree as it is. */
  lemma ScenarioPrepared(toStr: Value -> string, parse: string -> Option<Value>)
    ensures WellFormed(Table([GroupValue], []))
    ensures Prepare(ScenarioTree(), Table([GroupValue], []), NameKey, GroupValue, toStr, parse) == ScenarioTree()
  {
  }

  /** Accumulating over a root without the field and two leaves with it
      leaves the leaves alone and gives the root their sum. */
  lemma AccumulateOverTwoLeaves(f: Fields, a: Node, b: Node, k: Key)
    requires k !in f && a.Leaf? && b.Leaf? && HasNum(a, k) && HasNum(b, k)
    ensures AllNumOrAbsent(Branch(f, [a, b]), k)
    ensures Accumulate(Branch(f, [a, b]), k).1 == Branch(f[k := Num(Own(a, k) + Own(b, k))], [a, b])
  {
    var t := Branch(f, [a, b]);
    assert Nodes(t) == [t, a, b] by {
      assert NodesOf([b]) == [b];
      assert NodesOf([a, b]) == [a] + NodesOf([b]);
    }
    var rest := AccumulateAll([b], k);
    assert rest.1 == [b] && rest.0 == Own(b, k);
    var all := AccumulateAll([a, b], k);
    assert all.1 == [a, b] && all.0 == Own(a, k) + Own(b, k);
  }

  /** Both sizes are accumulated over a root that lacks them: the leaves
      keep theirs and the root receives the sums. */
  lemma SizesOverTwoLeaves(f: Fields, a: Node, b: Node)
    requires GroupSize !in f && MatchedSize !in f
    requires a.Leaf? && b.Leaf?
    requires HasNum(a, GroupSize) && HasNum(a, MatchedSize)
    requires HasNum(b, GroupSize) && HasNum(b, MatchedSize)
    ensures Ready(Branch(f, [a, b]))
    ensures Sizes(Branch(f, [a, b]))
            == Branch(f[GroupSize := Num(Own(a, GroupSize) + Own(b, GroupSize))]
                       [MatchedSize := Num(Own(a, MatchedSize) + Own(b, MatchedSize))], [a, b])
  {
    DistinctKeys();
    var t := Branch(f, [a, b]);
    AccumulateOverTwoLeaves(f, a, b, GroupSize);
    var s1 := Branch(f[GroupSize := Num(Own(a, GroupSize) + Own(b, GroupSize))], [a, b]);
    assert Missing(t, GroupSize) && t in Nodes(t);
    AuditZeroIffComplete(t, GroupSize, None);
    assert Propagate(t, GroupSize) == s1;
    AccumulateOverTwoLeaves(s1.fields, a, b, MatchedSize);
    assert Missing(s1, MatchedSize) && s1 in Nodes(s1);
    AuditZeroIffComplete(s1, MatchedSize, None);
  }

  /** The statistics stages over a root with two sized leaves: each leaf
      gets the fraction its own sizes call for, and the root sums the
      leaves. */
  lemma StatsOverTwoLeaves(f: Fields, a: Node, b: Node)
    requires a.Leaf? && b.Leaf?
    requires HasNum(a, GroupSize) && HasNum(a, MatchedSize)
    requires HasNum(b, GroupSize) && HasNum(b, MatchedSize)
    requires HasNum(Branch(f, [a, b]), GroupSize) && HasNum(Branch(f, [a, b]), MatchedSize)
    ensures AllHaveNum(Branch(f, [a, b]), GroupSize) && AllHaveNum(Branch(f, [a, b]), MatchedSize)
    ensures var st := Stats(Branch(f, [a, b]));
            && st.children == [CalcStats(a), CalcStats(b)]
            && Own(st, GroupSize) == Own(a, GroupSize) + Own(b, GroupSize)
            && Own(st, MatchedSize) == Own(a, MatchedSize) + Own(b, MatchedSize)
  {
    var t := Branch(f, [a, b]);
    assert Nodes(t) == [t, a, b] by {
      assert NodesOf([b]) == [b];
      assert NodesOf([a, b]) == [a] + NodesOf([b]);
    }
    var cs := CalcStatsAll([a, b]);
    assert cs == [CalcStats(a), CalcStats(b)] by {
      assert CalcStatsAll([b]) == [CalcStats(b)];
    }
    DistinctKeys();
    assert Own(CalcStats(a), GroupSize) == Own(a, GroupSize);
    assert Own(CalcStats(b), GroupSize) == Own(b, GroupSize);
    assert Own(CalcStats(a), MatchedSize) == Own(a, MatchedSize);
    assert Own(CalcStats(b), MatchedSize) == Own(b, MatchedSize);
    assert SumOwn([cs[1]], GroupSize) == Own(b, GroupSize);
    assert SumOwn([cs[1]], MatchedSize) == Own(b, MatchedSize);
  }

  /** Pie data over a root with two leaves is added to each node and
      changes none of their other fields. */
  lemma PieOverTwoLeaves(g: Fields, x: Node, y: Node)
    requires x.Leaf? && y.Leaf?
    requires forall m :: m in Nodes(Branch(g, [x, y])) ==> PieReady(m)
    ensures var r := AddPieData(Branch(g, [x, y]), true);
            && |r.children| == 2
            && Own(r, GroupSize) == Own(Branch(g, [x, y]), GroupSize)
            && Own(r, MatchedSize) == Own(Branch(g, [x, y]), MatchedSize)
            && Own(r, OccurrenceFraction) == Own(Branch(g, [x, y]), OccurrenceFraction)
            && Own(r.children[0], OccurrenceFraction) == Own(x, OccurrenceFraction)
            && Own(r.children[1], OccurrenceFraction) == Own(y, OccurrenceFraction)
            && PieConsistent(r) && PieConsistent(r.children[0]) && PieConsistent(r.children[1])
  {
  }

  /** The statistics stages after both sizes are accumulated over a root
      without them and two sized leaves. */
  lemma StatsAfterSizes(f: Fields, a: Node, b: Node)
    requires GroupSize !in f && MatchedSize !in f
    requires a.Leaf? && b.Leaf?
    requires HasNum(a, GroupSize) && HasNum(a, MatchedSize)
    requires HasNum(b, GroupSize) && HasNum(b, MatchedSize)
    ensures Ready(Branch(f, [a, b]))
    ensures var st := Stats(Sizes(Branch(f, [a, b])));
            && st == Branch(st.fields, [CalcStats(a), CalcStats(b)])
            && Own(st, GroupSize) == Own(a, GroupSize) + Own(b, GroupSize)
            && Own(st, MatchedSize) == Own(a, MatchedSize) + Own(b, MatchedSize)
            && FractionConsistent(st)
  {
    SizesOverTwoLeaves(f, a, b);
    var s := Sizes(Branch(f, [a, b]));
    StatsOverTwoLeaves(s.fields, a, b);
    var st := Stats(s);
    assert st in Nodes(st);
  }

  /** The whole of the last three stages over a root without sizes and two
      sized leaves: each leaf keeps its sizes and gets the fraction they call
      for, the root gets the sums and their fraction, and every node carries
      consistent pie slices. */
  lemma FinishOverTwoLeaves(f: Fields, a: Node, b: Node)
    requires GroupSize !in f && MatchedSize !in f
    requires a.Leaf? && b.Leaf?
    requires HasNum(a, GroupSize) && HasNum(a, MatchedSize)
    requires HasNum(b, GroupSize) && HasNum(b, MatchedSize)
    ensures Ready(Branch(f, [a, b]))
    ensures var r := Finish(Branch(f, [a, b]));
            && |r.children| == 2
            && Own(r.children[0], OccurrenceFraction) == Fraction(a)
            && Own(r.children[1], OccurrenceFraction) == Fraction(b)
            && Own(r, GroupSize) == Own(a, GroupSize) + Own(b, GroupSize)
            && Own(r, MatchedSize) == Own(a, MatchedSize) + Own(b, MatchedSize)
            && FractionConsistent(r)
            && PieConsistent(r) && PieConsistent(r.children[0]) && PieConsistent(r.children[1])
  {
    StatsAfterSizes(f, a, b);
    var st := Stats(Sizes(Branch(f, [a, b])));
    var x := CalcStats(a);
    var y := CalcStats(b);
    assert st == Branch(st.fields, [x, y]);
    PieOverTwoLeaves(st.fields, x, y);
    var r := AddPieData(st, true);
    assert Own(r, GroupSize) == Own(st, GroupSize);
    assert Own(r, MatchedSize) == Own(st, MatchedSize);
    assert Own(r, OccurrenceFraction) == Own(st, OccurrenceFraction);
    assert r in Nodes(r);
    assert Own(x, OccurrenceFraction) == Fraction(a) && Own(y, OccurrenceFraction) == Fraction(b) by {
      DistinctKeys();
    }
  }

  /** The same tree with a table that lacks the data-key column: the run
      stops with the source's `KeyError`. */
  lemma ScenarioMissingColumn(toStr: Value -> string, parse: string -> Option<Value>)
    ensures WellFormed(Table([], []))
    ensures Run(ScenarioTree(), Table([], []), NameKey, GroupValue, toStr, parse).None?
  {
  }

  /** The scenario's outcome: fractions 0.2 and 0.4 on the leaves, the sums
      30 and 10 and the fraction one third on the root, and complementary
      pie slices everywhere. */
  lemma ScenarioOutcome(toStr: Value -> string, parse: string -> Option<Value>)
    ensures WellFormed(Table([GroupValue], []))
    ensures Run(ScenarioTree(), Table([GroupValue], []), NameKey, GroupValue, toStr, parse).Some?
    ensures var r := Run(ScenarioTree(), Table([GroupValue], []), NameKey, GroupValue, toStr, parse).value;
            && |r.children| == 2
            && Own(r.children[0], OccurrenceFraction) == 0.2
            && Own(r.children[1], OccurrenceFraction) == 0.4
            && Own(r, GroupSize) == 30.0
            && Own(r, MatchedSize) == 10.0
            && Own(r, OccurrenceFraction) == 1.0 / 3.0
            && PieConsistent(r) && PieConsistent(r.children[0]) && PieConsistent(r.children[1])
  {
    ScenarioPrepared(toStr, parse);
    var t := ScenarioTree();
    DistinctKeys();
    FinishOverTwoLeaves(t.fields, t.children[0], t.children[1]);
    assert t == Branch(t.fields, [t.children[0], t.children[1]]);
  }
}

=== FILE: propagator.dfy ===
/** Bottom-up accumulation of a numeric field (`accumulate_field_in_parents`):
    every node's field is overwritten with the total of its whole subtree. */
module Propagator {
  import opened Json
  import opened Tree

  /** Returns the subtree total and the rewritten subtree. Children are
      processed first; the node's own value (0 when absent) is then added to
      the totals they return, and the sum is stored on the node. */
  function Accumulate(t: Node, k: Key): (r: (real, Node))
    requires AllNumOrAbsent(t, k)
    ensures r.1.fields == t.fields[k := Num(r.0)]
    ensures r.0 == Own(t, k) + SumOwn(Kids(r.1), k)
    ensures SameShape(t, r.1) && AgreeExcept(t, r.1, k)
    ensures AllHaveNum(r.1, k)
    ensures t.Leaf? && HasNum(t, k) ==> r.1 == t
    decreases t
  {
    match t
    case Leaf(f) =>
      (Own(t, k), Leaf(f[k := Num(Own(t, k))]))
    case Branch(f, cs) =>
      var (s, cs') := AccumulateAll(cs, k);
      var v := Own(t, k) + s;
      (v, Branch(f[k := Num(v)], cs'))
  }

  /** The loop over the children: the sum of their totals and the rewritten
      children, in order. */
  function AccumulateAll(ts: seq<Node>, k: Key): (r: (real, seq<Node>))
    requires forall m :: m in NodesOf(ts) ==> NumOrAbsent(m, k)
    ensures |r.1| == |ts|
    ensures forall i :: 0 <= i < |ts| ==> SameShape(ts[i], r.1[i]) && AgreeExcept(ts[i], r.1[i], k)
    ensures forall m :: m in NodesOf(r.1) ==> HasNum(m, k)
    ensures r.0 == SumOwn(r.1, k)
    decreases ts
  {
    if ts == [] then (0.0, [])
    else
      var (v, t') := Accumulate(ts[0], k);
      var (s, ts') := AccumulateAll(ts[1..], k);
      assert ([t'] + ts')[1..] == ts';
      (v + s, [t'] + ts')
  }

  /** Reference: the total of the original own values over a whole subtree. */
  function SubtreeSum(t: Node, k: Key): real
  {
    SumOwn(Nodes(t), k)
  }

  /** Reference rewrite of one node: its field holds its subtree total, and
      every other field is kept. */
  function Totals(k: Key): Node -> Fields
  {
    (n: Node) => n.fields[k := Num(SubtreeSum(n, k))]
  }

  /** Accumulation returns the total of the original own values over the
      whole subtree. */
  lemma {:induction false} AccumulateReturnsSubtreeSum(t: Node, k: Key)
    requires AllNumOrAbsent(t, k)
    ensures Accumulate(t, k).0 == SubtreeSum(t, k)
    decreases t
  {
    var ns := Nodes(t);
    assert SumOwn(ns, k) == Own(t, k) + SumOwn(ns[1..], k);
    match t
    case Leaf(f) =>
      assert ns[1..] == [];
    case Branch(f, cs) =>
      assert ns[1..] == NodesOf(cs);
      AccumulateAllReturnsSums(cs, k);
  }

  lemma {:induction false} AccumulateAllReturnsSums(ts: seq<Node>, k: Key)
    requires forall m :: m in NodesOf(ts) ==> NumOrAbsent(m, k)
    ensures AccumulateAll(ts, k).0 == SumOwn(NodesOf(ts), k)
    decreases ts
  {
    if ts != [] {
      AccumulateReturnsSubtreeSum(ts[0], k);
      AccumulateAllReturnsSums(ts[1..], k);
      SumOwnAppend(Nodes(ts[0]), NodesOf(ts[1..]), k);
    }
  }

  /** Afterwards every node holds the total of its own original subtree; the
      shape, the child order and every other field are unchanged. */
  lemma {:induction false} AccumulateSumsSubtrees(t: Node, k: Key)
    requires AllNumOrAbsent(t, k)
    ensures Accumulate(t, k).1 == MapFields(t, Totals(k))
    decreases t
  {
    AccumulateReturnsSubtreeSum(t, k);
    match t
    case Leaf(f) =>
    case Branch(f, cs) =>
      AccumulateAllSumsSubtrees(cs, k);
  }

  lemma {:induction false} AccumulateAllSumsSubtrees(ts: seq<Node>, k: Key)
    requires forall m :: m in NodesOf(ts) ==> NumOrAbsent(m, k)
    ensures AccumulateAll(ts, k).1 == MapFieldsAll(ts, Totals(k))
    decreases ts
  {
    if ts != [] {
      AccumulateSumsSubtrees(ts[0], k);
      AccumulateAllSumsSubtrees(ts[1..], k);
    }
  }

  /** Accumulation is not idempotent: a second pass adds the children's
      totals to the parent once more. */
  lemma AccumulateNotIdempotent()
    ensures exists t: Node, k: Key ::
              && AllNumOrAbsent(t, k)
              && AllNumOrAbsent(Accumulate(t, k).1, k)
              && Accumulate(Accumulate(t, k).1, k).1 != Accumulate(t, k).1
  {
    var k := GroupSize;
    var leaf := Leaf(map[k := Num(2.0)]);
    var t := Branch(map[k := Num(1.0)], [leaf]);
    assert NodesOf([leaf]) == [leaf];
    assert Nodes(t) == [t, leaf];
    var once := Accumulate(t, k);
    assert AccumulateAll([leaf], k).1 == [leaf];
    assert once.0 == 3.0;
    assert once.1.children == [leaf];
    assert Nodes(once.1) == [once.1, leaf];
    var twice := Accumulate(once.1, k);
    assert twice.0 == 5.0;
    assert twice.1.fields[k] != once.1.fields[k];
  }
}

=== FILE: row_matcher.dfy ===
/** The row matcher (`add_data_to_node`): joins the first table row whose
    data key equals the string form of a node's key, copying the row's
    columns onto the node, and recurses into every child. */
module RowMatcher {
  import opened Json
  import opened Tree

  type Row = map<Key, Value>

  /** The external table: its columns in order, and its rows. */
  datatype Table = Table(columns: seq<Key>, rows: seq<Row>)

  /** The shape a data frame read from a file has: distinct column names,
      and every row holds exactly one value per column. */
  predicate WellFormed(tb: Table)
  {
    && Distinct(tb.columns)
    && (forall r, c :: r in tb.rows && c in tb.columns ==> c in r)
    && (forall r, c :: r in tb.rows && c in r ==> c in tb.columns)
  }

  /** The row's data key holds exactly the string `s`. */
  predicate RowMatches(row: Row, dataKey: Key, s: string)
  {
    dataKey in row && row[dataKey] == Str(s)
  }

  /** Row `i` matches `s` and no earlier row does. */
  predicate IsFirstMatch(rows: seq<Row>, dataKey: Key, s: string, i: int)
  {
    && 0 <= i < |rows|
    && RowMatches(rows[i], dataKey, s)
    && forall j :: 0 <= j < i ==> !RowMatches(rows[j], dataKey, s)
  }

  /** Index of the first row matching `s`, if any. */
  function FirstMatch(rows: seq<Row>, dataKey: Key, s: string): (r: Option<nat>)
    ensures forall i :: IsFirstMatch(rows, dataKey, s, i) <==> r == Some(i)
    ensures r.None? <==> forall j :: 0 <= j < |rows| ==> !RowMatches(rows[j], dataKey, s)
  {
    if rows == [] then None
    else if RowMatches(rows[0], dataKey, s) then Some(0)
    else
      match FirstMatch(rows[1..], dataKey, s)
      case None => None
      case Some(i) =>
        assert IsFirstMatch(rows, dataKey, s, i + 1) by {
          assert IsFirstMatch(rows[1..], dataKey, s, i);
        }
        Some(i + 1)
  }

  /** `json.loads` applied to a cell: only a string can be parsed, and the
      parse itself may fail. */
  function ParseCell(parse: string -> Option<Value>, v: Value): Option<Value>
  {
    if v.Str? then parse(v.s) else None
  }

  /** The row carries a `matches_json` payload that parses. */
  predicate PayloadParses(row: Row, parse: string -> Option<Value>)
  {
    MatchesJson in row && ParseCell(parse, row[MatchesJson]).Some?
  }

  /** Field `k` is the same in `f` and `r`. */
  predicate Keeps(f: Fields, r: Fields, k: Key)
  {
    (k in r <==> k in f) && (k in f ==> r[k] == f[k])
  }

  predicate Distinct(cols: seq<Key>)
  {
    forall i, j :: 0 <= i < j < |cols| ==> cols[i] != cols[j]
  }

  /** Field `k` is written by no column from position `i` on: it is not
      `matches` (which the payload writes) and not a remaining column other
      than the skipped data key and `matches_json`. */
  predicate Unwritten(cols: seq<Key>, i: nat, dataKey: Key, k: Key)
    requires i <= |cols|
  {
    k != Matches && (k !in cols[i..] || k == dataKey || k == MatchesJson)
  }

  /** The column loop from position `i` on: `matches_json` is parsed into
      `matches`, the data key is skipped and every other column is copied.
      A failed parse ends the loop; what was copied before it stays. The
      contract is the frame: a field no remaining column writes is kept.
      What is written is stated by the lemmas below. */
  function CopyFrom(f: Fields, cols: seq<Key>, i: nat, row: Row, dataKey: Key,
                    parse: string -> Option<Value>): (r: Fields)
    requires i <= |cols| && Distinct(cols)
    requires forall c :: c in cols ==> c in row
    ensures forall k :: Unwritten(cols, i, dataKey, k) ==> Keeps(f, r, k)
    decreases |cols| - i
  {
    if i == |cols| then f
    else
      var c := cols[i];
      assert c in row;
      assert forall k :: Unwritten(cols, i, dataKey, k) ==>
               Unwritten(cols, i + 1, dataKey, k) && (k != c || c == dataKey || c == MatchesJson) by {
        assert cols[i..] == [c] + cols[i + 1..];
      }
      if c == MatchesJson then
        match ParseCell(parse, row[c])
        case None => f
        case Some(v) => CopyFrom(f[Matches := v], cols, i + 1, row, dataKey, parse)
      else if c != dataKey then CopyFrom(f[c := row[c]], cols, i + 1, row, dataKey, parse)
      else CopyFrom(f, cols, i + 1, row, dataKey, parse)
  }

  /** Column `i` of a list without repeats is not among the later ones. */
  lemma NotLater(cols: seq<Key>, i: nat)
    requires i < |cols| && Distinct(cols)
    ensures cols[i..] == [cols[i]] + cols[i + 1..]
    ensures cols[i] !in cols[i + 1..]
  {
  }

  /** Every column other than the data key, `matches_json` and `matches` is
      copied from the row, unless a failed parse of `matches_json` ended the
      loop before it. */
  lemma {:induction false} CopyFromCopies(f: Fields, cols: seq<Key>, i: nat, row: Row, dataKey: Key,
                                          parse: string -> Option<Value>, j: nat)
    requires i <= j < |cols| && Distinct(cols)
    requires forall c :: c in cols ==> c in row
    requires cols[j] != dataKey && cols[j] != MatchesJson && cols[j] != Matches
    requires MatchesJson !in cols[i..j] || PayloadParses(row, parse)
    ensures var r := CopyFrom(f, cols, i, row, dataKey, parse);
            cols[j] in r && r[cols[j]] == row[cols[j]]
    decreases |cols| - i
  {
    var c := cols[i];
    NotLater(cols, i);
    assert c in row;
    if i == j {
      // the column itself: copied here and not written again
      assert Unwritten(cols, i + 1, dataKey, c);
    } else {
      assert cols[i..j] == [c] + cols[i + 1..j];
      if c == MatchesJson {
        assert PayloadParses(row, parse);
        CopyFromCopies(f[Matches := ParseCell(parse, row[c]).value], cols, i + 1, row, dataKey, parse, j);
      } else if c != dataKey {
        CopyFromCopies(f[c := row[c]], cols, i + 1, row, dataKey, parse, j);
      } else {
        CopyFromCopies(f, cols, i + 1, row, dataKey, parse, j);
      }
    }
  }

  /** A plain `matches` column is copied like any other column when no
      parsable payload comes after it to overwrite it. */
  lemma {:induction false} CopyFromCopiesMatches(f: Fields, cols: seq<Key>, i: nat, row: Row, dataKey: Key,
                                                 parse: string -> Option<Value>, j: nat)
    requires i <= j < |cols| && Distinct(cols)
    requires forall c :: c in cols ==> c in row
    requires cols[j] == Matches && Matches != dataKey
    requires MatchesJson !in cols[i..j] || PayloadParses(row, parse)
    requires !(MatchesJson in cols[j + 1..] && PayloadParses(row, parse))
    ensures var r := CopyFrom(f, cols, i, row, dataKey, parse);
            Matches in r && r[Matches] == row[Matches]
    decreases |cols| - i
  {
    var c := cols[i];
    NotLater(cols, i);
    assert c in row;
    if i == j {
      CopyFromKeepsMatches(f[c := row[c]], cols, i + 1, row, dataKey, parse);
    } else {
      assert cols[i..j] == [c] + cols[i + 1..j];
      assert cols[j] in cols[i + 1..];
      if c == MatchesJson {
        CopyFromCopiesMatches(f[Matches := ParseCell(parse, row[c]).value], cols, i + 1, row, dataKey, parse, j);
      } else if c != dataKey {
        CopyFromCopiesMatches(f[c := row[c]], cols, i + 1, row, dataKey, parse, j);
      } else {
        CopyFromCopiesMatches(f, cols, i + 1, row, dataKey, parse, j);
      }
    }
  }

  /** `matches` is untouched when no remaining column is `matches` and no
      remaining `matches_json` parses. */
  lemma {:induction false} CopyFromKeepsMatches(f: Fields, cols: seq<Key>, i: nat, row: Row, dataKey: Key,
                                                parse: string -> Option<Value>)
    requires i <= |cols| && Distinct(cols)
    requires forall c :: c in cols ==> c in row
    requires Matches !in cols[i..] || Matches == dataKey
    requires !(MatchesJson in cols[i..] && PayloadParses(row, parse))
    ensures Keeps(f, CopyFrom(f, cols, i, row, dataKey, parse), Matches)
    decreases |cols| - i
  {
    if i < |cols| {
      var c := cols[i];
      NotLater(cols, i);
      assert c in row && (c != Matches || c == dataKey);
      if c == MatchesJson {
        assert !PayloadParses(row, parse);
      } else if c != dataKey {
        CopyFromKeepsMatches(f[c := row[c]], cols, i + 1, row, dataKey, parse);
      } else {
        CopyFromKeepsMatches(f, cols, i + 1, row, dataKey, parse);
      }
    }
  }

  /** A `matches_json` column whose payload parses puts the parsed value
      under `matches`, provided no `matches` column follows. */
  lemma {:induction false} CopyFromParsesPayload(f: Fields, cols: seq<Key>, i: nat, m: nat, row: Row, dataKey: Key,
                                                 parse: string -> Option<Value>)
    requires i <= m < |cols| && Distinct(cols)
    requires forall c :: c in cols ==> c in row
    requires cols[m] == MatchesJson && PayloadParses(row, parse)
    requires Matches !in cols[m + 1..] || Matches == dataKey
    ensures var r := CopyFrom(f, cols, i, row, dataKey, parse);
            Matches in r && r[Matches] == ParseCell(parse, row[MatchesJson]).value
    decreases m - i
  {
    var c := cols[i];
    assert c in row;
    if i == m {
      assert cols[i + 1..] == cols[m + 1..];
      assert MatchesJson !in cols[i + 1..] by { NotLater(cols, i); }
      CopyFromKeepsMatches(f[Matches := ParseCell(parse, row[c]).value], cols, i + 1, row, dataKey, parse);
    } else {
      assert c != MatchesJson;
      if c != dataKey {
        CopyFromParsesPayload(f[c := row[c]], cols, i + 1, m, row, dataKey, parse);
      } else {
        CopyFromParsesPayload(f, cols, i + 1, m, row, dataKey, parse);
      }
    }
  }


  /** A payload that does not parse ends the loop: every column after
      `matches_json` keeps the node's previous value. */
  lemma {:induction false} CopyFromStopsAtFailedParse(f: Fields, cols: seq<Key>, i: nat, row: Row, dataKey: Key,
                                                      parse: string -> Option<Value>, j: nat)
    requires i <= j < |cols| && Distinct(cols)
    requires forall c :: c in cols ==> c in row
    requires !PayloadParses(row, parse) && MatchesJson in cols[i..j]
    ensures Keeps(f, CopyFrom(f, cols, i, row, dataKey, parse), cols[j])
    decreases |cols| - i
  {
    var c := cols[i];
    NotLater(cols, i);
    assert c in row;
    assert cols[i..j] == [c] + cols[i + 1..j];
    if c != MatchesJson {
      assert cols[j] in cols[i + 1..] && c != cols[j];
      assert MatchesJson in cols[i + 1..j];
      if c != dataKey {
        CopyFromStopsAtFailedParse(f[c := row[c]], cols, i + 1, row, dataKey, parse, j);
      } else {
        CopyFromStopsAtFailedParse(f, cols, i + 1, row, dataKey, parse, j);
      }
    }
  }

  /** `str(node[node_field])`, or nothing when the key is absent or null. */
  function NodeKeyString(f: Fields, nodeKey: Key, toStr: Value -> string): (r: Option<string>)
  {
    if nodeKey !in f || f[nodeKey] == Null then None else Some(toStr(f[nodeKey]))
  }

  /** The merge of one node's own fields. A node without a usable key, or
      without a matching row, is left as it is; otherwise the first matching
      row is copied. An exception from the parse is swallowed by `CopyFrom`
      ending early. */
  function MergeFields(f: Fields, tb: Table, nodeKey: Key, dataKey: Key,
                       toStr: Value -> string, parse: string -> Option<Value>): (r: Fields)
    requires WellFormed(tb)
    ensures NodeKeyString(f, nodeKey, toStr).None? ==> r == f
    ensures NodeKeyString(f, nodeKey, toStr).Some?
            && (forall j :: 0 <= j < |tb.rows| ==>
                  !RowMatches(tb.rows[j], dataKey, NodeKeyString(f, nodeKey, toStr).value)) ==>
              r == f
    ensures forall i :: NodeKeyString(f, nodeKey, toStr).Some?
                        && IsFirstMatch(tb.rows, dataKey, NodeKeyString(f, nodeKey, toStr).value, i) ==>
              (forall c :: c in tb.columns ==> c in tb.rows[i])
              && r == CopyFrom(f, tb.columns, 0, tb.rows[i], dataKey, parse)
  {
    match NodeKeyString(f, nodeKey, toStr)
    case None => f
    case Some(s) =>
      match FirstMatch(tb.rows, dataKey, s)
      case None => f
      case Some(i) =>
        assert tb.rows[i] in tb.rows;
        CopyFrom(f, tb.columns, 0, tb.rows[i], dataKey, parse)
  }

  /** Merges the table into every node of the tree, keys or no keys. */
  function MergeTree(t: Node, tb: Table, nodeKey: Key, dataKey: Key,
                     toStr: Value -> string, parse: string -> Option<Value>): (r: Node)
    requires WellFormed(tb)
    ensures SameShape(t, r)
    ensures Missing(t, nodeKey) ==> r.fields == t.fields
    decreases t
  {
    var f := MergeFields(t.fields, tb, nodeKey, dataKey, toStr, parse);
    match t
    case Leaf(_) => Leaf(f)
    case Branch(_, cs) => Branch(f, MergeTreeAll(cs, tb, nodeKey, dataKey, toStr, parse))
  }

  function MergeTreeAll(ts: seq<Node>, tb: Table, nodeKey: Key, dataKey: Key,
                        toStr: Value -> string, parse: string -> Option<Value>): (rs: seq<Node>)
    requires WellFormed(tb)
    ensures |rs| == |ts|
    ensures forall i :: 0 <= i < |ts| ==> SameShape(ts[i], rs[i])
    ensures forall i :: 0 <= i < |ts| ==> rs[i] == MergeTree(ts[i], tb, nodeKey, dataKey, toStr, parse)
    decreases ts
  {
    if ts == [] then []
    else [MergeTree(ts[0], tb, nodeKey, dataKey, toStr, parse)]
         + MergeTreeAll(ts[1..], tb, nodeKey, dataKey, toStr, parse)
  }

  /** Reference rewrite of one node for the merge. */
  function Merger(tb: Table, nodeKey: Key, dataKey: Key,
                  toStr: Value -> string, parse: string -> Option<Value>): Node -> Fields
  {
    (n: Node) => if WellFormed(tb) then MergeFields(n.fields, tb, nodeKey, dataKey, toStr, parse) else n.fields
  }

  /** The recursion reaches every node, whether or not its parent matched,
      and each node is merged from its own key alone. */
  lemma {:induction false} MergeTreePointwise(t: Node, tb: Table, nodeKey: Key, dataKey: Key,
                                              toStr: Value -> string, parse: string -> Option<Value>)
    requires WellFormed(tb)
    ensures MergeTree(t, tb, nodeKey, dataKey, toStr, parse) == MapFields(t, Merger(tb, nodeKey, dataKey, toStr, parse))
    decreases t
  {
    match t
    case Leaf(_) =>
    case Branch(_, cs) =>
      MergeTreeAllPointwise(cs, tb, nodeKey, dataKey, toStr, parse);
  }

  lemma {:induction false} MergeTreeAllPointwise(ts: seq<Node>, tb: Table, nodeKey: Key, dataKey: Key,
                                                 toStr: Value -> string, parse: string -> Option<Value>)
    requires WellFormed(tb)
    ensures MergeTreeAll(ts, tb, nodeKey, dataKey, toStr, parse)
            == MapFieldsAll(ts, Merger(tb, nodeKey, dataKey, toStr, parse))
    decreases ts
  {
    if ts != [] {
      MergeTreePointwise(ts[0], tb, nodeKey, dataKey, toStr, parse);
      MergeTreeAllPointwise(ts[1..], tb, nodeKey, dataKey, toStr, parse);
    }
  }

  /** A two-row table keyed by `group_value`, whose second row has key "42",
      a `matches_json` payload and one plain column. */
  function ExampleTable(): Table
  {
    Table(["group_value", MatchesJson, "source"],
          [map["group_value" := Str("7"), MatchesJson := Str("[]"), "source" := Str("other")],
           map["group_value" := Str("42"), MatchesJson := Str("[1,2,3]"), "source" := Str("lab")]])
  }

  lemma ExampleTableFirstMatch()
    ensures WellFormed(ExampleTable())
    ensures IsFirstMatch(ExampleTable().rows, "group_value", "42", 1)
  {
  }

  lemma ExampleRowCopy(parse: string -> Option<Value>, f: Fields)
    requires parse("[1,2,3]") == Some(Arr([Num(1.0), Num(2.0), Num(3.0)]))
    ensures CopyFrom(f, ExampleTable().columns, 0, ExampleTable().rows[1], "group_value", parse)
            == f[Matches := Arr([Num(1.0), Num(2.0), Num(3.0)])]["source" := Str("lab")]
  {
  }

  /** A node whose key is the number 42 matches the row whose key column
      holds the string "42" (not the earlier row), gains the row's other
      columns, and gets the parsed `matches_json` payload under `matches`
      instead of the raw string. */
  lemma NumericKeyMatchesStringRow(toStr: Value -> string, parse: string -> Option<Value>)
    requires toStr(Num(42.0)) == "42"
    requires parse("[1,2,3]") == Some(Arr([Num(1.0), Num(2.0), Num(3.0)]))
    ensures MergeTree(Leaf(map[NameKey := Num(42.0)]), ExampleTable(), NameKey, "group_value", toStr, parse)
            == Leaf(map[NameKey := Num(42.0),
                        Matches := Arr([Num(1.0), Num(2.0), Num(3.0)]),
                        "source" := Str("lab")])
  {
    ExampleTableFirstMatch();
    var f := map[NameKey := Num(42.0)];
    assert NodeKeyString(f, NameKey, toStr) == Some("42");
    ExampleRowCopy(parse, f);
  }
}

=== FILE: statistics.dfy ===
/** Per-node occurrence fractions (`calc_stats`) and the root-only
    recomputation from the immediate children (`calc_root_stats`). */
module Statistics {
  import opened Json
  import opened Tree

  /** `matched / group`, with 0 when the group is empty. */
  function Ratio(matched: real, group: real): (q: real)
    ensures group == 0.0 ==> q == 0.0
    ensures group != 0.0 ==> q * group == matched
  {
    if group == 0.0 then 0.0 else matched / group
  }

  /** What `calc_stats` reads of a node without failing: a numeric group
      size, and a numeric matched size whenever the group size is not 0. */
  predicate StatsReady(n: Node)
  {
    && HasNum(n, GroupSize)
    && (Own(n, GroupSize) != 0.0 ==> HasNum(n, MatchedSize))
  }

  /** The fraction a node's stored sizes call for. */
  function Fraction(n: Node): real
  {
    Ratio(Own(n, MatchedSize), Own(n, GroupSize))
  }

  /** The stored `occurrence_fraction` agrees with the stored sizes. */
  predicate FractionConsistent(n: Node)
  {
    && StatsReady(n)
    && HasNum(n, OccurrenceFraction)
    && Own(n, OccurrenceFraction) == Fraction(n)
  }

  /** Post-order pass that stores every node's occurrence fraction. */
  function CalcStats(t: Node): (r: Node)
    requires forall m :: m in Nodes(t) ==> StatsReady(m)
    ensures SameShape(t, r) && AgreeExcept(t, r, OccurrenceFraction)
    ensures forall m :: m in Nodes(r) ==> FractionConsistent(m)
    decreases t
  {
    assert t in Nodes(t);
    assert StatsReady(t);
    DistinctKeys();
    var f := t.fields[OccurrenceFraction := Num(Fraction(t))];
    match t
    case Leaf(_) =>
      assert Nodes(Leaf(f)) == [Leaf(f)];
      Leaf(f)
    case Branch(_, cs) => Branch(f, CalcStatsAll(cs))
  }

  function CalcStatsAll(ts: seq<Node>): (rs: seq<Node>)
    requires forall m :: m in NodesOf(ts) ==> StatsReady(m)
    ensures |rs| == |ts|
    ensures forall i :: 0 <= i < |ts| ==> SameShape(ts[i], rs[i]) && AgreeExcept(ts[i], rs[i], OccurrenceFraction)
    ensures forall m :: m in NodesOf(rs) ==> FractionConsistent(m)
    decreases ts
  {
    if ts == [] then []
    else [CalcStats(ts[0])] + CalcStatsAll(ts[1..])
  }

  /** Reference rewrite of one node: only its fraction is set. */
  function WithFraction(): Node -> Fields
  {
    (n: Node) => n.fields[OccurrenceFraction := Num(Fraction(n))]
  }

  /** `calc_stats` sets each node's fraction from that node's own sizes and
      changes nothing else anywhere in the tree. */
  lemma {:induction false} CalcStatsPointwise(t: Node)
    requires forall m :: m in Nodes(t) ==> StatsReady(m)
    ensures CalcStats(t) == MapFields(t, WithFraction())
    decreases t
  {
    match t
    case Leaf(_) =>
    case Branch(_, cs) =>
      CalcStatsAllPointwise(cs);
  }

  lemma {:induction false} CalcStatsAllPointwise(ts: seq<Node>)
    requires forall m :: m in NodesOf(ts) ==> StatsReady(m)
    ensures CalcStatsAll(ts) == MapFieldsAll(ts, WithFraction())
    decreases ts
  {
    if ts != [] {
      CalcStatsPointwise(ts[0]);
      CalcStatsAllPointwise(ts[1..]);
    }
  }

  /** The root's sizes become the sums over its immediate children only, and
      its fraction is recomputed from them with the same zero guard. */
  function CalcRootStats(t: Node): (r: Node)
    requires t.Branch?
    requires forall c :: c in t.children ==> HasNum(c, GroupSize) && HasNum(c, MatchedSize)
    ensures r.Branch? && r.children == t.children
    ensures HasNum(r, GroupSize) && Own(r, GroupSize) == SumOwn(t.children, GroupSize)
    ensures HasNum(r, MatchedSize) && Own(r, MatchedSize) == SumOwn(t.children, MatchedSize)
    ensures FractionConsistent(r)
    ensures forall j :: j != GroupSize && j != MatchedSize && j != OccurrenceFraction ==>
              (j in r.fields <==> j in t.fields) && (j in t.fields ==> r.fields[j] == t.fields[j])
  {
    var group := SumOwn(t.children, GroupSize);
    var matched := SumOwn(t.children, MatchedSize);
    t.(fields := t.fields[GroupSize := Num(group)]
                         [MatchedSize := Num(matched)]
                         [OccurrenceFraction := Num(Ratio(matched, group))])
  }

  /** Changing any field other than the sizes and the fraction keeps every
      stored fraction consistent. */
  lemma AgreeExceptKeepsFractions(a: Node, b: Node, k: Key)
    requires AgreeExcept(a, b, k)
    requires k != GroupSize && k != MatchedSize && k != OccurrenceFraction
    requires forall m :: m in Nodes(a) ==> FractionConsistent(m)
    ensures forall m :: m in Nodes(b) ==> FractionConsistent(m)
  {
    forall m | m in Nodes(b)
      ensures FractionConsistent(m)
    {
      AgreeExceptPartner(a, b, k, m);
      var n :| n in Nodes(a) && AgreeOff(n.fields, m.fields, k);
      assert FractionConsistent(n);
    }
  }
}

=== FILE: tree.dfy ===
/** The ontology tree: every node is a bag of named fields, and a node that
    carries a `children` key also has an ordered list of child nodes. */
module Tree {
  import opened Json

  /** A field name. The key `children` is not a field: the child list is
      kept apart from the bag of fields. */
  type Key = k: string | k != "children" witness "name"

  const NameKey: Key := "name"
  const GroupSize: Key := "group_size"
  const MatchedSize: Key := "matched_size"
  const OccurrenceFraction: Key := "occurrence_fraction"
  const PieData: Key := "pie_data"
  const Matches: Key := "matches"
  const MatchesJson: Key := "matches_json"

  type Fields = map<Key, Value>

  /** The named fields the pipeline writes are pairwise different. */
  lemma DistinctKeys()
    ensures GroupSize != MatchedSize && GroupSize != OccurrenceFraction && MatchedSize != OccurrenceFraction
    ensures PieData != GroupSize && PieData != MatchedSize && PieData != OccurrenceFraction
    ensures Matches != MatchesJson
  {
  }

  /** `Leaf` is a node without a `children` key; `Branch` is one with a
      (possibly empty) child list. */
  datatype Node =
    | Leaf(fields: Fields)
    | Branch(fields: Fields, children: seq<Node>)

  function Kids(t: Node): seq<Node>
  {
    match t
    case Leaf(_) => []
    case Branch(_, cs) => cs
  }

  /** `node.get(k) is None`: the field is absent or explicitly null. */
  predicate Missing(t: Node, k: Key)
  {
    k !in t.fields || t.fields[k] == Null
  }

  predicate HasNum(t: Node, k: Key)
  {
    k in t.fields && t.fields[k].Num?
  }

  predicate NumOrAbsent(t: Node, k: Key)
  {
    k !in t.fields || t.fields[k].Num?
  }

  /** `node.get(k, 0)` for a field that is numeric or absent. */
  function Own(t: Node, k: Key): (v: real)
    ensures HasNum(t, k) ==> t.fields[k] == Num(v)
    ensures k !in t.fields ==> v == 0.0
  {
    if HasNum(t, k) then t.fields[k].x else 0.0
  }

  /** Sum of `Own(_, k)` over a list of nodes. */
  function SumOwn(ns: seq<Node>, k: Key): real
  {
    if ns == [] then 0.0 else Own(ns[0], k) + SumOwn(ns[1..], k)
  }

  /** The depth-first pre-order listing of a subtree: the node itself, then
      each child's subtree in input order. */
  function Nodes(t: Node): (r: seq<Node>)
    ensures |r| >= 1 && r[0] == t
    decreases t
  {
    match t
    case Leaf(_) => [t]
    case Branch(_, cs) => [t] + NodesOf(cs)
  }

  function NodesOf(ts: seq<Node>): seq<Node>
    decreases ts
  {
    if ts == [] then [] else Nodes(ts[0]) + NodesOf(ts[1..])
  }

  /** Every node of the subtree holds a number or nothing under `k`. */
  predicate AllNumOrAbsent(t: Node, k: Key)
  {
    forall m :: m in Nodes(t) ==> NumOrAbsent(m, k)
  }

  /** Every node of the subtree holds a number under `k`. */
  predicate AllHaveNum(t: Node, k: Key)
  {
    forall m :: m in Nodes(t) ==> HasNum(m, k)
  }

  /** Same constructors and same number of children everywhere. */
  predicate SameShape(a: Node, b: Node)
    decreases a
  {
    match a
    case Leaf(_) => b.Leaf?
    case Branch(_, cs) =>
      && b.Branch?
      && |cs| == |b.children|
      && forall i :: 0 <= i < |cs| ==> SameShape(cs[i], b.children[i])
  }

  /** The tree of the same shape in which every node's fields are replaced by
      `g` applied to the original node (and so to its original subtree). */
  function MapFields(t: Node, g: Node -> Fields): (r: Node)
    ensures SameShape(t, r)
    ensures r.fields == g(t)
    decreases t
  {
    match t
    case Leaf(_) => Leaf(g(t))
    case Branch(_, cs) => Branch(g(t), MapFieldsAll(cs, g))
  }

  function MapFieldsAll(ts: seq<Node>, g: Node -> Fields): (rs: seq<Node>)
    ensures |rs| == |ts|
    ensures forall i :: 0 <= i < |ts| ==> rs[i] == MapFields(ts[i], g)
    decreases ts
  {
    if ts == [] then [] else [MapFields(ts[0], g)] + MapFieldsAll(ts[1..], g)
  }

  lemma {:induction false} SumOwnAppend(a: seq<Node>, b: seq<Node>, k: Key)
    ensures SumOwn(a + b, k) == SumOwn(a, k) + SumOwn(b, k)
    decreases |a|
  {
    if a == [] {
      assert a + b == b;
    } else {
      assert (a + b)[1..] == a[1..] + b;
      SumOwnAppend(a[1..], b, k);
    }
  }

  /** A node lies in the listing of a list of subtrees exactly when it lies in
      the listing of one of them. */
  lemma {:induction false} InNodesOf(ts: seq<Node>, m: Node)
    ensures m in NodesOf(ts) <==> exists i :: 0 <= i < |ts| && m in Nodes(ts[i])
    decreases |ts|
  {
    if ts != [] {
      InNodesOf(ts[1..], m);
      if m in NodesOf(ts[1..]) {
        var i :| 0 <= i < |ts[1..]| && m in Nodes(ts[1..][i]);
        assert m in Nodes(ts[i + 1]);
      }
      if exists i :: 0 <= i < |ts| && m in Nodes(ts[i]) {
        var i :| 0 <= i < |ts| && m in Nodes(ts[i]);
        if i > 0 {
          assert ts[1..][i - 1] == ts[i];
        }
      }
    }
  }

  /** Every node of a child's subtree is a node of the parent's subtree. */
  lemma ChildNodesIncluded(t: Node, i: int)
    requires 0 <= i < |Kids(t)|
    ensures forall m :: m in Nodes(Kids(t)[i]) ==> m in Nodes(t)
  {
    forall m | m in Nodes(Kids(t)[i])
      ensures m in Nodes(t)
    {
      InNodesOf(Kids(t), m);
    }
  }

  lemma {:induction false} SameShapeRefl(t: Node)
    ensures SameShape(t, t)
    decreases t
  {
    match t
    case Leaf(_) =>
    case Branch(_, cs) =>
      forall i | 0 <= i < |cs|
        ensures SameShape(cs[i], cs[i])
      {
        SameShapeRefl(cs[i]);
      }
  }

  lemma {:induction false} SameShapeTrans(a: Node, b: Node, c: Node)
    requires SameShape(a, b) && SameShape(b, c)
    ensures SameShape(a, c)
    decreases a
  {
    match a
    case Leaf(_) =>
    case Branch(_, cs) =>
      forall i | 0 <= i < |cs|
        ensures SameShape(cs[i], c.children[i])
      {
        SameShapeTrans(cs[i], b.children[i], c.children[i]);
      }
  }

  /** The two field bags agree on every key other than `k`. */
  ghost predicate AgreeOff(f: Fields, g: Fields, k: Key)
  {
    forall j :: j != k ==> (j in f <==> j in g) && (j in f ==> f[j] == g[j])
  }

  /** `b` is `a` with, at most, field `k` changed at some nodes: same shape,
      and every other field equal at every node. */
  ghost predicate AgreeExcept(a: Node, b: Node, k: Key)
    decreases a
  {
    && AgreeOff(a.fields, b.fields, k)
    && match a
       case Leaf(_) => b.Leaf?
       case Branch(_, cs) =>
         && b.Branch?
         && |cs| == |b.children|
         && forall i :: 0 <= i < |cs| ==> AgreeExcept(cs[i], b.children[i], k)
  }

  /** Corresponding nodes of the two pre-order listings agree off `k`. */
  lemma {:induction false} NodesAgree(a: Node, b: Node, k: Key)
    requires AgreeExcept(a, b, k)
    ensures |Nodes(a)| == |Nodes(b)|
    ensures forall i :: 0 <= i < |Nodes(a)| ==> AgreeOff(Nodes(a)[i].fields, Nodes(b)[i].fields, k)
    decreases a
  {
    match a
    case Leaf(_) =>
    case Branch(_, cs) =>
      NodesOfAgree(cs, b.children, k);
  }

  lemma {:induction false} NodesOfAgree(xs: seq<Node>, ys: seq<Node>, k: Key)
    requires |xs| == |ys|
    requires forall i :: 0 <= i < |xs| ==> AgreeExcept(xs[i], ys[i], k)
    ensures |NodesOf(xs)| == |NodesOf(ys)|
    ensures forall i :: 0 <= i < |NodesOf(xs)| ==> AgreeOff(NodesOf(xs)[i].fields, NodesOf(ys)[i].fields, k)
    decreases xs
  {
    if xs != [] {
      NodesAgree(xs[0], ys[0], k);
      NodesOfAgree(xs[1..], ys[1..], k);
      var n := |Nodes(xs[0])|;
      forall i | 0 <= i < |NodesOf(xs)|
        ensures AgreeOff(NodesOf(xs)[i].fields, NodesOf(ys)[i].fields, k)
      {
        if i >= n {
          assert NodesOf(xs)[i] == NodesOf(xs[1..])[i - n];
          assert NodesOf(ys)[i] == NodesOf(ys[1..])[i - n];
        }
      }
    }
  }

  /** Every node of `b` has a partner in `a` that agrees with it off `k`. */
  lemma AgreeExceptPartner(a: Node, b: Node, k: Key, m: Node)
    requires AgreeExcept(a, b, k) && m in Nodes(b)
    ensures exists n :: n in Nodes(a) && AgreeOff(n.fields, m.fields, k)
  {
    NodesAgree(a, b, k);
    var i :| 0 <= i < |Nodes(b)| && Nodes(b)[i] == m;
    assert Nodes(a)[i] in Nodes(a);
  }

  /** A field other than `k` that is numeric (or absent) everywhere in `a`
      stays so in `b`. */
  lemma AgreeExceptKeepsNumbers(a: Node, b: Node, k: Key, j: Key)
    requires AgreeExcept(a, b, k) && j != k
    ensures AllNumOrAbsent(a, j) ==> AllNumOrAbsent(b, j)
    ensures AllHaveNum(a, j) ==> AllHaveNum(b, j)
  {
    forall m | m in Nodes(b)
      ensures exists n :: n in Nodes(a) && AgreeOff(n.fields, m.fields, k)
    {
      AgreeExceptPartner(a, b, k, m);
    }
  }

  /** Children that agree off `k` have the same sum of any other field. */
  lemma {:induction false} AgreeExceptSums(xs: seq<Node>, ys: seq<Node>, k: Key, j: Key)
    requires |xs| == |ys| && j != k
    requires forall i :: 0 <= i < |xs| ==> AgreeExcept(xs[i], ys[i], k)
    ensures SumOwn(xs, j) == SumOwn(ys, j)
    decreases xs
  {
    if xs != [] {
      AgreeExceptSums(xs[1..], ys[1..], k, j);
      assert Own(xs[0], j) == Own(ys[0], j);
    }
  }

  lemma {:induction false} AgreeExceptRefl(t: Node, k: Key)
    ensures AgreeExcept(t, t, k)
    decreases t
  {
    match t
    case Leaf(_) =>
    case Branch(_, cs) =>
      forall i | 0 <= i < |cs|
        ensures AgreeExcept(cs[i], cs[i], k)
      {
        AgreeExceptRefl(cs[i], k);
      }
  }

  lemma {:induction false} AgreeExceptShape(a: Node, b: Node, k: Key)
    requires AgreeExcept(a, b, k)
    ensures SameShape(a, b)
    decreases a
  {
    match a
    case Leaf(_) =>
    case Branch(_, cs) =>
      forall i | 0 <= i < |cs|
        ensures SameShape(cs[i], b.children[i])
      {
        AgreeExceptShape(cs[i], b.children[i], k);
      }
  }

  /** Listings that agree off `k`, node by node, have the same sum of any
      other field. */
  lemma {:induction false} SumOwnAgree(xs: seq<Node>, ys: seq<Node>, k: Key, j: Key)
    requires |xs| == |ys| && j != k
    requires forall i :: 0 <= i < |xs| ==> AgreeOff(xs[i].fields, ys[i].fields, k)
    ensures SumOwn(xs, j) == SumOwn(ys, j)
    decreases |xs|
  {
    if xs != [] {
      SumOwnAgree(xs[1..], ys[1..], k, j);
      assert AgreeOff(xs[0].fields, ys[0].fields, k);
    }
  }

  // Laws of the reference rewrite.

  /** A rewrite that keeps every node's fields keeps the tree. */
  lemma {:induction false} MapFieldsKeeps(t: Node, g: Node -> Fields)
    requires forall n :: n in Nodes(t) ==> g(n) == n.fields
    ensures MapFields(t, g) == t
    decreases t
  {
    match t
    case Leaf(_) =>
    case Branch(_, cs) =>
      var rs := MapFieldsAll(cs, g);
      forall i | 0 <= i < |cs|
        ensures rs[i] == cs[i]
      {
        ChildNodesIncluded(t, i);
        MapFieldsKeeps(cs[i], g);
      }
      assert rs == cs;
  }

  /** Two rewrites that agree on every node of the tree rewrite it alike. */
  lemma {:induction false} MapFieldsCongruent(t: Node, g: Node -> Fields, h: Node -> Fields)
    requires forall n :: n in Nodes(t) ==> g(n) == h(n)
    ensures MapFields(t, g) == MapFields(t, h)
    decreases t
  {
    match t
    case Leaf(_) =>
    case Branch(_, cs) =>
      var xs := MapFieldsAll(cs, g);
      var ys := MapFieldsAll(cs, h);
      forall i | 0 <= i < |cs|
        ensures xs[i] == ys[i]
      {
        ChildNodesIncluded(t, i);
        MapFieldsCongruent(cs[i], g, h);
      }
      assert xs == ys;
  }

  /** Rewriting with `g` and then with `h` is one rewrite, as long as `h`
      sees in each rewritten subtree what `gh` sees in the original one. */
  lemma {:induction false} MapFieldsCompose(t: Node, g: Node -> Fields, h: Node -> Fields, gh: Node -> Fields)
    requires forall n :: n in Nodes(t) ==> h(MapFields(n, g)) == gh(n)
    ensures MapFields(MapFields(t, g), h) == MapFields(t, gh)
    decreases t
  {
    match t
    case Leaf(_) =>
    case Branch(_, cs) =>
      var xs := MapFieldsAll(MapFieldsAll(cs, g), h);
      var ys := MapFieldsAll(cs, gh);
      forall i | 0 <= i < |cs|
        ensures xs[i] == ys[i]
      {
        ChildNodesIncluded(t, i);
        MapFieldsCompose(cs[i], g, h, gh);
      }
      assert xs == ys;
  }

  /** A rewrite that changes at most field `k` of each node changes at
      most field `k` of the tree. */
  lemma {:induction false} MapFieldsAgree(t: Node, g: Node -> Fields, k: Key)
    requires forall n :: n in Nodes(t) ==> AgreeOff(n.fields, g(n), k)
    ensures AgreeExcept(t, MapFields(t, g), k)
    decreases t
  {
    assert t in Nodes(t);
    match t
    case Leaf(_) =>
    case Branch(_, cs) =>
      forall i | 0 <= i < |cs|
        ensures AgreeExcept(cs[i], MapFields(t, g).children[i], k)
      {
        ChildNodesIncluded(t, i);
        MapFieldsAgree(cs[i], g, k);
      }
  }
}
